=== FILE: README.md ===
# Transportation problem allocation core, in Dafny

This project models the allocation core of the transportation-problem solver
in `main.py` and proves properties of it. The core has three parts:

- **Balancing** (`balance_problem`). A problem whose total supply differs from
  its total demand gets a zero-cost dummy source, which supplies the shortfall,
  or a zero-cost dummy destination, which absorbs the surplus.
- **Northwest Corner.** A cursor starts at the top-left cell. At each cell it
  ships `min(supply[i], demand[j])`. It then moves down when the row's supply
  is used up and right otherwise, so the row wins when both are used up at once.
- **Least Cost.** While some supply and some demand remain, the loop scans the
  matrix row by row for the cheapest cell whose row and column are both still
  open. It ships as much as it can there. A candidate is replaced only by a
  strictly cheaper cell, so the first cheapest cell in row-major order wins.

Both allocators keep a running total of `allocated * cost` and record one
snapshot per step: remaining supply, remaining demand, costs and allocation.

Layout:

| file | module | contents |
|---|---|---|
| `grid.dfy` | `Grid` | vector sums, prefix sums, column sums, the cell-by-cell weighted sum of two matrices, cells and `Option` |
| `balance.dfy` | `Balance` | the `Problem` datatype and `BalanceProblem` |
| `shipment.dfy` | `Shipment` | the loop state `Work`, the shared allocation step `Ship`, snapshots, the accounting invariant and feasibility |
| `northwest.dfy` | `Northwest` | the Northwest Corner loop, its closed form, and the proof that the loop computes it |
| `leastcost.dfy` | `LeastCost` | the cheapest-cell scan, the turns of the Least Cost loop as a relation, its determinism and its termination measure |
| `scenarios.dfy` | `Scenarios` | worked instances of balancing and Northwest Corner on concrete numbers, and the one-pass Northwest Corner runs |
| `leastcost_scenario.dfy` | `LeastCostScenario` | the Least Cost loop on a concrete problem, turn by turn |

Main results:

- **Northwest Corner closed form.** Lay the supplies end to end on one line and
  the demands end to end on another. Source `r` then owns an interval of the
  first line and destination `c` an interval of the second. The Northwest
  Corner loop ships, from `r` to `c`, the length of the overlap of those two
  intervals (`NorthwestMatrix`). This holds for every non-negative input,
  balanced or not.
- **Feasibility.** On a balanced problem with non-negative supplies and
  demands, both methods end with every row of the allocation summing to its
  supply and every column to its demand.
- **Cost equation.** The returned total is the weighted sum of allocation and
  cost in both methods.
- **Least Cost selection.** The scan picks the first cheapest eligible cell.
  That cell is unique. For non-negative supplies and demands, the scan's
  `(0, 0)` fallback is never reached while the loop runs.
- **Northwest Corner passes.** One pass of the loop at main.py:211-220 is
  `Turn`, which does nothing once the cursor has left the matrix, and
  `Iterate(q, k)` is the state after `k` passes. The loop makes exactly the
  passes before the cursor leaves, and takes one snapshot per pass.
- **Least Cost run.** One turn of the loop at main.py:240-254 is the relation
  `Stepped(q, w, at, w')`: the guard holds in `w`, the scan selects `at`, and
  shipping there gives `w'`. The loop's turns are described as a relation
  (`Steps`, `Run`): each state follows from the one before by one such turn,
  and a complete run ends when the guard fails. No cell is shipped at twice
  in a run (`CellsDistinct`). A
  problem has at most one complete run (`RunUnique`), and `Settle` produces
  it. `LeastCost` returns the final state of that run, and its trace holds
  the state after each turn.
- **Least Cost example.** On supplies 20, 30, 25, demands 10, 25, 40 and
  unit costs 4 8 8 / 16 24 16 / 8 16 24, the loop picks (0, 0), (0, 1),
  (1, 2), (2, 1) and (2, 2) and returns a total of 1080
  (`LeastCostScenario.LeastCostExample`).

## Model

| member | source | states |
|---|---|---|
| `Balance.WithDummySource` | main.py:188-190 | The shortfall branch. The supplies gain one entry, the given amount, at the end, so total supply grows by that amount. The demands are unchanged, the old cost rows stay in place, and the new last row is all zeros and as wide as the others. |
| `Balance.WithDummyDestination` | main.py:191-194 | The surplus branch. The demands gain one entry, the given amount, at the end, so total demand grows by that amount. The supplies are unchanged, and every cost row keeps its entries and gains a zero at the end. |
| `Balance.BalanceProblem` | main.py:184-194 | The result is balanced and rectangular. A row is added exactly when supply falls short, and a column exactly when it exceeds demand. Existing supplies, demands and costs stay in place, and every dummy cost is zero. Non-negative quantities and costs stay non-negative. |
| `Balance.BalancedTotal` | main.py:184-194 | After balancing, total supply is the larger of the two original totals. |
| `Balance.BalanceIdempotent` | main.py:184-194 | A balanced problem is left unchanged, so balancing twice is balancing once. |
| `Shipment.Start` | main.py:208-209 | The starting state of both loops (also main.py:237-238) has an all-zero allocation and a zero total. Its remainders are the problem's supplies and demands, so the accounting invariant holds from the start. |
| `Shipment.Ship` | main.py:212-216 | The step keeps the loop state the shape of the problem: the remainders have one entry per source and destination, and the allocation stays a full matrix. What the step ships is stated by `Shipment.ShipEffect`. |
| `Shipment.ShipEffect` | main.py:212-216 | The cell receives `min(supply[i], demand[j])`. The row or the column is used up and neither goes negative. The amount leaves both the row and the column, and the totals of supply and demand both drop by it. No other remainder or cell changes. |
| `Shipment.ShipKeepsAccounts` | main.py:212-216 | Writing into an empty cell keeps the accounting: allocation plus remainder is still each supply and each demand, and the running total is still the weighted sum of allocation and cost. |
| `Shipment.BothUsedUp` | main.py:240 | With equal non-negative remainders, when one side is used up so is the other. |
| `Northwest.NorthwestStep` | main.py:212-220 | The cursor moves exactly one cell, down or right. It moves down exactly when the row's supply reaches zero, even if the column's demand does too, and right only when the column's demand is zero. |
| `Northwest.Turn` | main.py:211-220 | One pass of the loop body, which does nothing once the guard fails. The state keeps the problem's shape, the cursor stays within one past the last row and column, and it moves at most one cell, never up or left. |
| `Northwest.Iterate` | main.py:207-220 | The loop state after `k` passes, starting from the state of main.py:207-209. The state keeps the problem's shape, and the cursor has moved at most `k` cells. |
| `Northwest.IterateStops` | main.py:211 | Once the cursor has left the matrix, further passes change nothing. |
| `Northwest.IteratePasses` | main.py:211-220 | If `k` passes moved the cursor `k` cells, the guard held before each of them, so all `k` were real passes of the loop. |
| `Northwest.CornerStep` | main.py:211-220 | Each step keeps the loop invariant. Shipped units stay at a boundary of the cumulative supply or demand intervals. Cells before the cursor hold their closed-form amount and the rest are empty. |
| `Northwest.IterateAtCorner` | main.py:207-220 | After any number of steps, the state satisfies the loop invariant. |
| `Northwest.CornerEnd` | main.py:211-224 | When the cursor leaves the matrix, the allocation equals the closed form and the total is the weighted sum. A balanced problem ends with every row and column sum matching its supply or demand. |
| `Northwest.TraceRecorded` | main.py:222 | Every snapshot taken after a step accounts for every unit of supply and demand. |
| `Northwest.Trace` | main.py:222 | The snapshots taken by the first `k` passes, one per pass: there are exactly `k`, and the last is the state after pass `k`. |
| `Northwest.TraceAt` | main.py:211-222 | Snapshot `t` of the trace is the loop state after step `t + 1`. |
| `Northwest.Walk` | main.py:207-222 | The loop ends with the cursor outside the matrix, after fewer than `len(supply) + len(demand)` steps. Each step moves the cursor one cell, so the number of steps is the cursor's distance from the corner. It takes one snapshot per step. |
| `Northwest.NorthwestCorner` | main.py:207-224 | The allocation is the overlap closed form and the total is its weighted cost. A balanced problem is solved feasibly. The loop takes `k` steps: the guard held before each of them and fails after the last, so `k` is determined by the problem. It is fewer than `len(supply) + len(demand)` when any step is taken, and the trace holds exactly one snapshot per step: snapshot `t` is the state after step `t + 1`. Every snapshot is consistent, and the last one holds the final allocation. |
| `Northwest.NorthwestMethod` | main.py:205-224 | After balancing, the allocation is feasible for the balanced problem and equals its closed form. The total is its weighted cost, and it is non-negative for non-negative costs. The loop on the balanced problem makes exactly `k` passes, and the trace holds one snapshot per pass, of the state after it. |
| `LeastCost.CheapestUnique` | main.py:241-247 | At most one cell is the first cheapest eligible cell. |
| `LeastCost.SelectCheapest` | main.py:241-247 | When some cell has positive supply and positive demand, the scan returns one of least cost among such cells. Every such cell before it costs strictly more. Otherwise the scan returns `(0, 0)`. |
| `LeastCost.EligibleExists` | main.py:240-249 | While the loop guard holds on non-negative remainders, some cell is eligible, so the `(0, 0)` fallback is never used. |
| `LeastCost.SelectedUnique` | main.py:241-247 | The scan's answer is determined by the remainders and the costs: two cells that both satisfy its description are the same cell. |
| `LeastCost.LeastStep` | main.py:249-254 | The chosen cell was still empty and receives a positive amount. Fewer sources and destinations stay open, and the loop invariant holds. |
| `LeastCost.StepCloses` | main.py:250-253 | Shipping at a cell whose row and column are open closes one of them and reopens nothing. |
| `LeastCost.SteppedUnique` | main.py:240-254 | A state has at most one next turn: the cell shipped at and the next state are determined by the state and the costs. |
| `LeastCost.TurnKeepsFilled` | main.py:240-254 | A turn never ships at a cell that already holds a positive amount, and that amount is left as it was. |
| `LeastCost.StaysFilled` | main.py:240-254 | The cell shipped at on a turn of a run still holds a positive amount in every later state. |
| `LeastCost.CellsDistinct` | main.py:240-254 | A run never ships at the same cell twice: a cell once chosen is never chosen again. |
| `LeastCost.LeastEnd` | main.py:240 | When the loop stops on a balanced problem, all supply and demand is used up and the allocation is feasible. |
| `LeastCost.StepsEach` | main.py:237-254 | A sequence of states and cells is a run's steps exactly when it starts from the empty allocation and every state follows from the one before by shipping at the cell the scan selects while the guard holds. |
| `LeastCost.StepsUnique` | main.py:240-254 | Two runs of the same length on the same problem pass through the same states and ship at the same cells. |
| `LeastCost.RunIsLongest` | main.py:240 | No sequence of turns goes on past the end of a complete run, because the guard fails there. |
| `LeastCost.RunUnique` | main.py:237-256 | A problem has at most one complete run: the loop is deterministic, so its result depends only on the problem. |
| `LeastCost.StepsInvariant` | main.py:240-254 | Every state of a run keeps the loop invariant, and the number of turns taken plus the number of sources and destinations still open never exceeds `len(supply) + len(demand)`. |
| `LeastCost.Snaps` | main.py:256 | The snapshots of a run's states after each turn: one per turn, snapshot `k` being the state after turn `k + 1`. |
| `LeastCost.Settle` | main.py:237-256 | The loop's states and the cells it ships at form a complete run, and the returned state is the run's last. It stops with every source or every destination used up and the loop invariant intact. The trace holds one snapshot per turn, of the state after that turn. |
| `LeastCost.LeastCost` | main.py:237-258 | The allocation and the total are those of the problem's complete run, and the trace's snapshots are the states after each turn. No cell is shipped at twice. The allocation is non-negative and the total is its weighted cost. A balanced problem is solved feasibly. There are at most `len(supply) + len(demand)` snapshots, each accounting for every unit. |
| `LeastCost.LeastCostMethod` | main.py:235-258 | After balancing, the result is the last state of the balanced problem's complete Least Cost run: its allocation and its total. The trace holds one snapshot per turn of that run, of the state after the turn. The allocation is feasible for the balanced problem, and the total is its weighted cost, non-negative for non-negative costs. |
| `Scenarios.BalanceSurplusExample` | main.py:191-194 | Supplies 10, 10 against demands 5, 5 gain a dummy destination of demand 10, with zero cost from both sources. |
| `Scenarios.NorthwestExample` | main.py:207-220 | Supplies 20, 30, 25 and demands 10, 25, 40 ship 10, 10, 15, 15, 25 along the diagonal. |
| `Scenarios.NorthwestExampleCost` | main.py:216 | That allocation costs 1320 under the unit costs 4 8 8 / 16 24 16 / 8 16 24. |
| `Scenarios.FirstPassDown` | main.py:211-219 | With a single source whose supply fits within the first demand, the first pass ships at (0, 0) and moves the cursor down, out of the matrix. |
| `Scenarios.NorthwestOnePass` | main.py:211-222 | On such a problem (supply 5 against demands 5 and 0, say) the loop makes exactly one pass and records exactly one snapshot, the state after shipping at (0, 0). |
| `LeastCostScenario.LeastCostExample` | main.py:237-256 | On that problem every complete Least Cost run picks (0, 0), (0, 1), (1, 2), (2, 1) and (2, 2), ends with the allocation 10 10 0 / 0 0 30 / 0 15 10, and totals 1080. |
| `LeastCostScenario.StallsOnNegative` | main.py:240-254 | On the balanced supplies 0, -1 and demands 0, -1 the loop guard holds but no cell is eligible. The scan falls back to (0, 0), and shipping there leaves the state unchanged, so the loop never stops. |

## Left out

- The Tk interface is not modelled: windows, widgets, reset and the rendering of each step. The per-step `self.output(...)` call becomes a `Snapshot` appended to the trace.
- Reading quantities with `int(entry.get())` and the `messagebox` error paths are input handling and are not modelled. The model takes integer sequences directly.
- Vogel's Approximation Method is a stub in the source, with no allocation logic to model.
- The `float('inf')` starting minimum of the scan is modelled as `Option<int>`, where `None` is larger than every cost (`Below`).
- The source mutates its lists in place. The model returns new values instead.
- The solver dispatch that picks a method by name is not modelled.
- `Balance.BalanceProblem` requires a rectangular cost matrix, and at least one row when a dummy row is due. With no rows, the source would fail reading `cost_matrix[0]`.
- `Northwest.NorthwestCorner`, `Northwest.NorthwestMethod`, `LeastCost.Settle`, `LeastCost.LeastCost` and `LeastCost.LeastCostMethod` require non-negative supplies and demands. On negative input the Least Cost loop can run forever. For example, take the already balanced supplies 0, -1 and demands 0, -1. The loop guard holds, but no cell has positive supply and positive demand, so the scan returns `(0, 0)`. The loop then ships `min(0, 0) = 0` there, and the state never changes (`LeastCostScenario.StallsOnNegative`). The Northwest closed form also assumes non-negative quantities.
- The Least Cost loop has no closed form in this model. Its result is characterised as the last state of the problem's unique complete run, where each turn is described by `LeastCost.Selected` and `Shipment.Ship`.

=== FILE: balance.dfy ===
/**
  The transportation problem and the balancing step that precedes every
  allocation method (`balance_problem` in main.py).

  A problem is balanced when total supply equals total demand. Balancing
  adds a zero-cost dummy source that supplies a shortfall, or a zero-cost
  dummy destination that absorbs a surplus. It never adds both.
 */
module Balance {
  import opened Grid

  /** Supplies of the sources (rows), demands of the destinations
      (columns), and the unit cost of shipping from each source to each
      destination. */
  datatype Problem = Problem(supply: seq<int>, demand: seq<int>, cost: Matrix)

  /** The cost matrix has one row per source and one column per destination. */
  predicate Rectangular(p: Problem)
  {
    IsMatrix(p.cost, |p.supply|, |p.demand|)
  }

  predicate Balanced(p: Problem)
  {
    Sum(p.supply) == Sum(p.demand)
  }

  /** Supplies and demands are non-negative: the input the allocation
      methods are written for. */
  predicate NonNegativeQuantities(p: Problem)
  {
    NonNegative(p.supply) && NonNegative(p.demand)
  }

  /** What the balancing step needs: a rectangular cost matrix, with at
      least one row when a dummy row is due, because the dummy row takes the
      width of row 0. */
  predicate Balanceable(p: Problem)
  {
    Rectangular(p) && (Sum(p.supply) < Sum(p.demand) ==> |p.supply| >= 1)
  }

  /** `p` with a dummy source of supply `amount` whose cost row is all zero. */
  function WithDummySource(p: Problem, amount: int): (q: Problem)
    requires Rectangular(p) && |p.supply| >= 1
    ensures Rectangular(q) && Sum(q.supply) == Sum(p.supply) + amount
    ensures q.supply == p.supply + [amount] && q.demand == p.demand
    ensures q.cost[..|p.supply|] == p.cost && q.cost[|p.supply|] == ZeroRow(|p.demand|)
  {
    SumAppend(p.supply, amount);
    assert (p.cost + [ZeroRow(|p.cost[0]|)])[..|p.supply|] == p.cost;
    Problem(p.supply + [amount], p.demand, p.cost + [ZeroRow(|p.cost[0]|)])
  }

  /** `p` with a dummy destination of demand `amount` that every source
      reaches at zero cost. */
  function WithDummyDestination(p: Problem, amount: int): (q: Problem)
    requires Rectangular(p)
    ensures Rectangular(q) && Sum(q.demand) == Sum(p.demand) + amount
    ensures q.supply == p.supply && q.demand == p.demand + [amount]
    ensures forall r :: 0 <= r < |p.supply| ==> q.cost[r] == p.cost[r] + [0]
  {
    SumAppend(p.demand, amount);
    Problem(p.supply, p.demand + [amount], AppendZeroColumn(p.cost))
  }

  /** Balances `p`. A shortfall of supply becomes a dummy source whose
      supply is the shortfall, with an all-zero cost row; a surplus becomes
      a dummy destination whose demand is the surplus, with a zero cost at
      the end of every row. */
  function BalanceProblem(p: Problem): (q: Problem)
    requires Balanceable(p)
    ensures Rectangular(q) && Balanced(q)
    // exactly one of: a dummy row, a dummy column, nothing -- by the sign of the imbalance
    ensures |q.supply| == |p.supply| + (if Sum(p.supply) < Sum(p.demand) then 1 else 0)
    ensures |q.demand| == |p.demand| + (if Sum(p.supply) > Sum(p.demand) then 1 else 0)
    // what was there before is kept, in place
    ensures q.supply[..|p.supply|] == p.supply && q.demand[..|p.demand|] == p.demand
    ensures forall r :: 0 <= r < |p.supply| ==> q.cost[r][..|p.demand|] == p.cost[r]
    // the dummy source or destination ships at zero cost
    ensures forall r, c ::
              0 <= r < |q.supply| && 0 <= c < |q.demand| && (r >= |p.supply| || c >= |p.demand|)
              ==> q.cost[r][c] == 0
    ensures NonNegativeQuantities(p) ==> NonNegativeQuantities(q)
    ensures NonNegativeMatrix(p.cost) ==> NonNegativeMatrix(q.cost)
  {
    var totalSupply := Sum(p.supply);
    var totalDemand := Sum(p.demand);
    if totalSupply < totalDemand then
      var q := WithDummySource(p, totalDemand - totalSupply);
      assert q.supply[..|p.supply|] == p.supply;
      assert forall r :: 0 <= r < |p.supply| ==> q.cost[r] == p.cost[r];
      q
    else if totalSupply > totalDemand then
      var q := WithDummyDestination(p, totalSupply - totalDemand);
      assert q.demand[..|p.demand|] == p.demand;
      assert forall r :: 0 <= r < |p.supply| ==> q.cost[r][..|p.demand|] == p.cost[r];
      q
    else
      p
  }

  /** Balancing a balanced problem changes nothing, so balancing twice is
      the same as balancing once. */
  lemma BalanceIdempotent(p: Problem)
    requires Balanceable(p)
    ensures Balanced(p) ==> BalanceProblem(p) == p
    ensures BalanceProblem(BalanceProblem(p)) == BalanceProblem(p)
  {
  }

  /** The balanced totals: the larger of the two original totals. */
  lemma BalancedTotal(p: Problem)
    requires Balanceable(p)
    ensures Sum(BalanceProblem(p).supply) == Max(Sum(p.supply), Sum(p.demand))
  {
    var q := BalanceProblem(p);
    if Sum(p.supply) < Sum(p.demand) {
      assert q.supply == p.supply + [Sum(p.demand) - Sum(p.supply)];
      SumAppend(p.supply, Sum(p.demand) - Sum(p.supply));
    } else if Sum(p.supply) > Sum(p.demand) {
      assert q.supply == p.supply;
    }
  }
}

=== FILE: grid.dfy ===
/**
  Integer vectors and rectangular integer matrices, and the sums a
  transportation problem is stated in: vector sums, column sums, prefix
  sums and the cell-by-cell weighted sum of two matrices.

  Every recursive sum peels off the LAST entry, so that the sum of a
  prefix `s[..k + 1]` unfolds directly into the sum of `s[..k]` plus `s[k]`.
 */
module Grid {

  type Matrix = seq<seq<int>>

  /** A cell of a matrix: a row (source) and a column (destination). */
  datatype Cell = Cell(row: nat, col: nat)

  /** A value that may be absent; `None` stands for an unbounded minimum. */
  datatype Option<T> = None | Some(value: T)

  function Min(a: int, b: int): int { if a <= b then a else b }

  function Max(a: int, b: int): int { if a >= b then a else b }

  /** The sum of a vector (Python's `sum`). */
  function Sum(s: seq<int>): int
  {
    if |s| == 0 then 0 else Sum(s[..|s| - 1]) + s[|s| - 1]
  }

  /** The sum of the first `k` entries of `s`. */
  function Prefix(s: seq<int>, k: nat): int
    requires k <= |s|
  {
    Sum(s[..k])
  }

  predicate NonNegative(s: seq<int>)
  {
    forall k :: 0 <= k < |s| ==> s[k] >= 0
  }

  /** Python's `any` on a list of integers: some entry is non-zero. */
  predicate Any(s: seq<int>)
  {
    exists k :: 0 <= k < |s| && s[k] != 0
  }

  /** The number of non-zero entries of `s`. */
  function NonZeroCount(s: seq<int>): nat
  {
    if |s| == 0 then 0
    else NonZeroCount(s[..|s| - 1]) + (if s[|s| - 1] != 0 then 1 else 0)
  }

  /** `m` has `rows` rows of `cols` entries each. */
  predicate IsMatrix(m: Matrix, rows: nat, cols: nat)
  {
    |m| == rows && forall r :: 0 <= r < |m| ==> |m[r]| == cols
  }

  predicate NonNegativeMatrix(m: Matrix)
  {
    forall r, c :: 0 <= r < |m| && 0 <= c < |m[r]| ==> m[r][c] >= 0
  }

  /** `a` and `b` are parallel grids: same number of rows, same row lengths. */
  predicate SameShape(a: Matrix, b: Matrix)
  {
    |a| == |b| && forall r :: 0 <= r < |a| ==> |a[r]| == |b[r]|
  }

  /** Cell `(r, c)` comes strictly before cell `(i, j)` in a row-major scan. */
  predicate Precedes(r: int, c: int, i: int, j: int)
  {
    r < i || (r == i && c < j)
  }

  /** A row of `n` zeros (`[0] * n`). */
  function ZeroRow(n: nat): (z: seq<int>)
    ensures |z| == n && forall c :: 0 <= c < n ==> z[c] == 0
  {
    seq(n, _ => 0)
  }

  /** `m` with a zero appended to every row. */
  function AppendZeroColumn(m: Matrix): (m': Matrix)
    ensures |m'| == |m| && forall r :: 0 <= r < |m| ==> m'[r] == m[r] + [0]
  {
    seq(|m|, r requires 0 <= r < |m| => m[r] + [0])
  }

  /** The `rows` x `cols` matrix of zeros (`[[0] * cols for _ in range(rows)]`). */
  function Zeros(rows: nat, cols: nat): (z: Matrix)
    ensures IsMatrix(z, rows, cols)
    ensures forall r, c :: 0 <= r < rows && 0 <= c < cols ==> z[r][c] == 0
  {
    seq(rows, _ => ZeroRow(cols))
  }

  /** The matrix `m` with cell `(r, c)` overwritten by `v`. */
  function SetCell(m: Matrix, r: nat, c: nat, v: int): (m': Matrix)
    requires r < |m| && c < |m[r]|
    ensures |m'| == |m| && |m'[r]| == |m[r]| && m'[r][c] == v
    ensures forall r' :: 0 <= r' < |m| && r' != r ==> m'[r'] == m[r']
    ensures forall c' :: 0 <= c' < |m[r]| && c' != c ==> m'[r][c'] == m[r][c']
  {
    m[r := m[r][c := v]]
  }

  /** The sum of column `c` of `m`. */
  function ColSum(m: Matrix, c: nat): int
    requires forall r :: 0 <= r < |m| ==> c < |m[r]|
  {
    if |m| == 0 then 0 else ColSum(m[..|m| - 1], c) + m[|m| - 1][c]
  }

  /** The inner product of two vectors of equal length. */
  function Dot(a: seq<int>, b: seq<int>): int
    requires |a| == |b|
  {
    if |a| == 0 then 0 else Dot(a[..|a| - 1], b[..|b| - 1]) + a[|a| - 1] * b[|b| - 1]
  }

  /** The sum over all cells of `a[r][c] * b[r][c]`. */
  function Weighted(a: Matrix, b: Matrix): int
    requires SameShape(a, b)
  {
    if |a| == 0 then 0 else Weighted(a[..|a| - 1], b[..|b| - 1]) + Dot(a[|a| - 1], b[|b| - 1])
  }

  // ---------------------------------------------------------------------
  // Vector sums
  // ---------------------------------------------------------------------

  /** Overwriting one entry changes the sum by the difference. */
  lemma {:induction false} SumUpdate(s: seq<int>, k: nat, v: int)
    requires k < |s|
    ensures Sum(s[k := v]) == Sum(s) - s[k] + v
  {
    var n := |s| - 1;
    if k < n {
      assert s[k := v][..n] == s[..n][k := v];
      SumUpdate(s[..n], k, v);
    } else {
      assert s[k := v][..n] == s[..n];
    }
  }

  /** Appending an entry adds it to the sum. */
  lemma SumAppend(s: seq<int>, x: int)
    ensures Sum(s + [x]) == Sum(s) + x
  {
    assert (s + [x])[..|s|] == s;
  }

  lemma {:induction false} SumNonNegative(s: seq<int>)
    requires NonNegative(s)
    ensures Sum(s) >= 0
  {
    if |s| > 0 {
      SumNonNegative(s[..|s| - 1]);
    }
  }

  /** A non-negative vector sums to zero exactly when no entry is non-zero. */
  lemma {:induction false} SumZeroIffNoneLeft(s: seq<int>)
    requires NonNegative(s)
    ensures Sum(s) == 0 <==> !Any(s)
  {
    if |s| > 0 {
      var n := |s| - 1;
      SumZeroIffNoneLeft(s[..n]);
      SumNonNegative(s[..n]);
      if Any(s[..n]) {
        var k :| 0 <= k < n && s[..n][k] != 0;
        assert s[k] != 0;
      }
      if Any(s) && !Any(s[..n]) {
        var k :| 0 <= k < |s| && s[k] != 0;
        assert forall k' :: 0 <= k' < n ==> s[k'] == s[..n][k'];
      }
    }
  }

  lemma {:induction false} PrefixStep(s: seq<int>, k: nat)
    requires k < |s|
    ensures Prefix(s, k + 1) == Prefix(s, k) + s[k]
  {
    assert s[..k + 1][..k] == s[..k];
  }

  lemma PrefixWhole(s: seq<int>)
    ensures Prefix(s, |s|) == Sum(s)
  {
    assert s[..|s|] == s;
  }

  /** Prefix sums of a non-negative vector never decrease. */
  lemma {:induction false} PrefixMonotone(s: seq<int>, a: nat, b: nat)
    requires NonNegative(s) && a <= b <= |s|
    ensures Prefix(s, a) <= Prefix(s, b)
  {
    if a < b {
      PrefixMonotone(s, a, b - 1);
      PrefixStep(s, b - 1);
    }
  }

  // ---------------------------------------------------------------------
  // Counting non-zero entries
  // ---------------------------------------------------------------------

  lemma {:induction false} NonZeroCountUpdate(s: seq<int>, k: nat, v: int)
    requires k < |s|
    ensures NonZeroCount(s[k := v])
         == NonZeroCount(s) - (if s[k] != 0 then 1 else 0) + (if v != 0 then 1 else 0)
  {
    var n := |s| - 1;
    if k < n {
      assert s[k := v][..n] == s[..n][k := v];
      NonZeroCountUpdate(s[..n], k, v);
    } else {
      assert s[k := v][..n] == s[..n];
    }
  }

  lemma {:induction false} NonZeroCountBound(s: seq<int>)
    ensures NonZeroCount(s) <= |s|
  {
    if |s| > 0 {
      NonZeroCountBound(s[..|s| - 1]);
    }
  }

  // ---------------------------------------------------------------------
  // Matrix sums
  // ---------------------------------------------------------------------

  /** Overwriting cell `(r, c)` changes column `c`'s sum by the difference
      and leaves every other column's sum alone. */
  lemma {:induction false} ColSumUpdate(m: Matrix, r: nat, c: nat, v: int, c': nat)
    requires r < |m| && c < |m[r]|
    requires forall r' :: 0 <= r' < |m| ==> c' < |m[r']|
    ensures ColSum(SetCell(m, r, c, v), c')
         == ColSum(m, c') + (if c' == c then v - m[r][c] else 0)
  {
    var n := |m| - 1;
    var m' := SetCell(m, r, c, v);
    if r < n {
      assert m'[..n] == SetCell(m[..n], r, c, v);
      ColSumUpdate(m[..n], r, c, v, c');
    } else {
      assert m'[..n] == m[..n];
    }
  }

  lemma {:induction false} DotUpdate(a: seq<int>, b: seq<int>, k: nat, v: int)
    requires |a| == |b| && k < |a|
    ensures Dot(a[k := v], b) == Dot(a, b) - a[k] * b[k] + v * b[k]
  {
    var n := |a| - 1;
    if k < n {
      assert a[k := v][..n] == a[..n][k := v];
      DotUpdate(a[..n], b[..n], k, v);
    } else {
      assert a[k := v][..n] == a[..n];
    }
  }

  /** Overwriting cell `(r, c)` of `a` changes the weighted sum by the
      difference times the weight `b[r][c]`. */
  lemma {:induction false} WeightedUpdate(a: Matrix, b: Matrix, r: nat, c: nat, v: int)
    requires SameShape(a, b) && r < |a| && c < |a[r]|
    ensures SameShape(SetCell(a, r, c, v), b)
    ensures Weighted(SetCell(a, r, c, v), b) == Weighted(a, b) - a[r][c] * b[r][c] + v * b[r][c]
  {
    var n := |a| - 1;
    var a' := SetCell(a, r, c, v);
    if r < n {
      assert a'[..n] == SetCell(a[..n], r, c, v);
      WeightedUpdate(a[..n], b[..n], r, c, v);
    } else {
      assert a'[..n] == a[..n];
      DotUpdate(a[r], b[r], c, v);
    }
  }

  lemma {:induction false} ZeroRowSums(s: seq<int>)
    requires forall k :: 0 <= k < |s| ==> s[k] == 0
    ensures Sum(s) == 0
  {
    if |s| > 0 {
      ZeroRowSums(s[..|s| - 1]);
    }
  }

  /** Every row, column and weighted sum of the zero matrix is zero. */
  lemma {:induction false} ZerosSums(rows: nat, cols: nat, b: Matrix)
    requires IsMatrix(b, rows, cols)
    ensures forall r :: 0 <= r < rows ==> Sum(Zeros(rows, cols)[r]) == 0
    ensures forall c :: 0 <= c < cols ==> ColSum(Zeros(rows, cols), c) == 0
    ensures Weighted(Zeros(rows, cols), b) == 0
  {
    var z := Zeros(rows, cols);
    forall r | 0 <= r < rows
      ensures Sum(z[r]) == 0
    {
      ZeroRowSums(z[r]);
    }
    if rows > 0 {
      assert z[..rows - 1] == Zeros(rows - 1, cols);
      ZerosSums(rows - 1, cols, b[..rows - 1]);
      ZeroDot(z[rows - 1], b[rows - 1]);
    }
  }

  lemma {:induction false} ZeroDot(a: seq<int>, b: seq<int>)
    requires |a| == |b| && forall k :: 0 <= k < |a| ==> a[k] == 0
    ensures Dot(a, b) == 0
  {
    if |a| > 0 {
      ZeroDot(a[..|a| - 1], b[..|b| - 1]);
    }
  }

  lemma {:induction false} DotNonNegative(a: seq<int>, b: seq<int>)
    requires |a| == |b| && NonNegative(a) && NonNegative(b)
    ensures Dot(a, b) >= 0
  {
    if |a| > 0 {
      DotNonNegative(a[..|a| - 1], b[..|b| - 1]);
    }
  }

  /** Non-negative quantities at non-negative unit costs cost a non-negative total. */
  lemma {:induction false} WeightedNonNegative(a: Matrix, b: Matrix)
    requires SameShape(a, b) && NonNegativeMatrix(a) && NonNegativeMatrix(b)
    ensures Weighted(a, b) >= 0
  {
    if |a| > 0 {
      var n := |a| - 1;
      WeightedNonNegative(a[..n], b[..n]);
      DotNonNegative(a[n], b[n]);
    }
  }

  /** Cutting a prefix short is taking a shorter prefix. */
  lemma SliceOfSlice<T>(s: seq<T>, n: nat, m: nat)
    requires m <= n <= |s|
    ensures s[..n][..m] == s[..m]
  {
  }

  /** The prefix as long as the sequence is the sequence. */
  lemma SliceWhole<T>(s: seq<T>, n: nat)
    requires n == |s|
    ensures s[..n] == s
  {
  }

  /** Appending an element leaves the earlier elements in place. */
  lemma AppendKeeps<T>(t: seq<T>, x: T)
    ensures forall i :: 0 <= i < |t| ==> (t + [x])[i] == t[i]
  {
  }

  /** A non-empty sequence is its front followed by its last element. */
  lemma SplitLast<T>(s: seq<T>)
    requires |s| > 0
    ensures s == s[..|s| - 1] + [s[|s| - 1]]
  {
  }
}

=== FILE: leastcost.dfy ===
/**
  The Least Cost method (`least_cost_method` in main.py, its loop at lines
  237-258).

  While some source still has supply and some destination still has demand,
  the loop scans the cost matrix row by row for the cheapest cell whose row
  and column are both still open, ships as much as it can there, and adds
  the cost of that shipment to the total. The scan replaces its candidate
  only on a strictly smaller cost, so among equally cheap cells the first in
  row-major order wins.
 */
module LeastCost {
  import opened Grid
  import opened Balance
  import opened Shipment

  /** Cell `(r, c)` may be chosen: its source still has supply and its
      destination still has demand. */
  predicate Eligible(supply: seq<int>, demand: seq<int>, r: nat, c: nat)
    requires r < |supply| && c < |demand|
  {
    supply[r] > 0 && demand[c] > 0
  }

  /** Some cell before `(i, j)` in row-major order is eligible. */
  predicate EligibleBefore(supply: seq<int>, demand: seq<int>, i: nat, j: nat)
  {
    exists r: nat, c: nat :: r < |supply| && c < |demand| && Precedes(r, c, i, j) && Eligible(supply, demand, r, c)
  }

  /** Some cell is eligible. */
  predicate HasEligible(supply: seq<int>, demand: seq<int>)
  {
    EligibleBefore(supply, demand, |supply|, 0)
  }

  /** `x < bound`, where a missing bound is infinitely large. */
  predicate Below(x: int, bound: Option<int>)
  {
    bound.None? || x < bound.value
  }

  /** Among the eligible cells before `(i, j)` in row-major order, `at` is
      one of least cost, and every eligible cell before `at` costs strictly
      more. */
  predicate CheapestBefore(supply: seq<int>, demand: seq<int>, cost: Matrix, at: Cell, i: nat, j: nat)
    requires IsMatrix(cost, |supply|, |demand|)
  {
    at.row < |supply| && at.col < |demand| && Precedes(at.row, at.col, i, j) &&
    Eligible(supply, demand, at.row, at.col) &&
    (forall r: nat, c: nat :: r < |supply| && c < |demand| && Precedes(r, c, i, j) && Eligible(supply, demand, r, c)
       ==> cost[at.row][at.col] <= cost[r][c]) &&
    (forall r: nat, c: nat :: r < |supply| && c < |demand| && Precedes(r, c, at.row, at.col) && Eligible(supply, demand, r, c)
       ==> cost[at.row][at.col] < cost[r][c])
  }

  /** The cell the Least Cost scan picks: the first cheapest eligible cell
      in row-major order. */
  predicate IsFirstCheapest(supply: seq<int>, demand: seq<int>, cost: Matrix, at: Cell)
    requires IsMatrix(cost, |supply|, |demand|)
  {
    CheapestBefore(supply, demand, cost, at, |supply|, 0)
  }

  /** At most one cell is the first cheapest eligible cell. */
  lemma CheapestUnique(supply: seq<int>, demand: seq<int>, cost: Matrix, a: Cell, b: Cell)
    requires IsMatrix(cost, |supply|, |demand|)
    requires IsFirstCheapest(supply, demand, cost, a) && IsFirstCheapest(supply, demand, cost, b)
    ensures a == b
  {
  }

  /** What the scan returns: the first cheapest eligible cell, or `(0, 0)`
      when no cell is eligible. */
  predicate Selected(supply: seq<int>, demand: seq<int>, cost: Matrix, at: Cell)
    requires IsMatrix(cost, |supply|, |demand|)
  {
    if HasEligible(supply, demand) then IsFirstCheapest(supply, demand, cost, at) else at == Cell(0, 0)
  }

  /** The scan's answer is determined by its input. */
  lemma SelectedUnique(supply: seq<int>, demand: seq<int>, cost: Matrix, a: Cell, b: Cell)
    requires IsMatrix(cost, |supply|, |demand|)
    requires Selected(supply, demand, cost, a) && Selected(supply, demand, cost, b)
    ensures a == b
  {
    if HasEligible(supply, demand) {
      CheapestUnique(supply, demand, cost, a, b);
    }
  }

  /** The selection scan (the nested `for` loops): returns the first
      cheapest eligible cell, or `(0, 0)` when no cell is eligible. */
  method SelectCheapest(supply: seq<int>, demand: seq<int>, cost: Matrix) returns (at: Cell)
    requires IsMatrix(cost, |supply|, |demand|)
    ensures HasEligible(supply, demand) ==> IsFirstCheapest(supply, demand, cost, at)
    ensures !HasEligible(supply, demand) ==> at == Cell(0, 0)
  {
    var minCost: Option<int> := None;
    at := Cell(0, 0);
    var i := 0;
    while i < |supply|
      invariant i <= |supply|
      invariant minCost.None? <==> !EligibleBefore(supply, demand, i, 0)
      invariant minCost.None? ==> at == Cell(0, 0)
      invariant minCost.Some? ==> CheapestBefore(supply, demand, cost, at, i, 0)
      invariant minCost.Some? ==> minCost.value == cost[at.row][at.col]
    {
      var j := 0;
      while j < |demand|
        invariant j <= |demand|
        invariant minCost.None? <==> !EligibleBefore(supply, demand, i, j)
        invariant minCost.None? ==> at == Cell(0, 0)
        invariant minCost.Some? ==> CheapestBefore(supply, demand, cost, at, i, j)
        invariant minCost.Some? ==> minCost.value == cost[at.row][at.col]
      {
        ScanStep(supply, demand, cost, at, i, j);
        if supply[i] > 0 && demand[j] > 0 && Below(cost[i][j], minCost) {
          TakeCandidate(supply, demand, cost, at, i, j);
          minCost := Some(cost[i][j]);
          at := Cell(i, j);
        } else if minCost.Some? {
          KeepCandidate(supply, demand, cost, at, i, j);
        }
        j := j + 1;
      }
      ScanRow(supply, demand, cost, at, i);
      i := i + 1;
    }
  }

  /** Scanning cell `(i, j)` widens the scanned region by exactly that cell. */
  lemma ScanStep(supply: seq<int>, demand: seq<int>, cost: Matrix, at: Cell, i: nat, j: nat)
    requires IsMatrix(cost, |supply|, |demand|) && i < |supply| && j < |demand|
    ensures EligibleBefore(supply, demand, i, j + 1)
        <==> EligibleBefore(supply, demand, i, j) || Eligible(supply, demand, i, j)
  {
    if EligibleBefore(supply, demand, i, j + 1) && !Eligible(supply, demand, i, j) {
      var r: nat, c: nat :| r < |supply| && c < |demand| && Precedes(r, c, i, j + 1) && Eligible(supply, demand, r, c);
      assert Precedes(r, c, i, j);
    }
    if Eligible(supply, demand, i, j) {
      assert Precedes(i, j, i, j + 1);
    }
  }

  /** A strictly cheaper eligible cell, or the first eligible one, becomes
      the candidate. */
  lemma TakeCandidate(supply: seq<int>, demand: seq<int>, cost: Matrix, at: Cell, i: nat, j: nat)
    requires IsMatrix(cost, |supply|, |demand|) && i < |supply| && j < |demand|
    requires Eligible(supply, demand, i, j)
    requires !EligibleBefore(supply, demand, i, j) ||
             (CheapestBefore(supply, demand, cost, at, i, j) && cost[i][j] < cost[at.row][at.col])
    ensures CheapestBefore(supply, demand, cost, Cell(i, j), i, j + 1)
  {
  }

  /** A cell that is not eligible or not strictly cheaper leaves the
      candidate in place. */
  lemma KeepCandidate(supply: seq<int>, demand: seq<int>, cost: Matrix, at: Cell, i: nat, j: nat)
    requires IsMatrix(cost, |supply|, |demand|) && i < |supply| && j < |demand|
    requires CheapestBefore(supply, demand, cost, at, i, j)
    requires !Eligible(supply, demand, i, j) || cost[at.row][at.col] <= cost[i][j]
    ensures CheapestBefore(supply, demand, cost, at, i, j + 1)
  {
  }

  /** The end of row `i` is the start of row `i + 1`. */
  lemma ScanRow(supply: seq<int>, demand: seq<int>, cost: Matrix, at: Cell, i: nat)
    requires IsMatrix(cost, |supply|, |demand|) && i < |supply|
    ensures EligibleBefore(supply, demand, i, |demand|) <==> EligibleBefore(supply, demand, i + 1, 0)
    ensures CheapestBefore(supply, demand, cost, at, i, |demand|) <==> CheapestBefore(supply, demand, cost, at, i + 1, 0)
  {
    if EligibleBefore(supply, demand, i + 1, 0) {
      var r: nat, c: nat :| r < |supply| && c < |demand| && Precedes(r, c, i + 1, 0) && Eligible(supply, demand, r, c);
      assert Precedes(r, c, i, |demand|);
    }
  }

  /** Every cell that holds a shipment has its row or its column used up,
      so it is never eligible again. */
  predicate Closed(q: Problem, w: Work)
    requires Fits(q, w)
  {
    forall r: nat, c: nat :: r < |q.supply| && c < |q.demand| && w.allocation[r][c] != 0
      ==> w.supply[r] == 0 || w.demand[c] == 0
  }

  /** The number of sources and destinations still open. */
  function Open(w: Work): nat
  {
    NonZeroCount(w.supply) + NonZeroCount(w.demand)
  }

  /** The Least Cost loop invariant: the shared accounting, non-negative
      remainders and shipments, used-up cells, and equal amounts taken off
      both sides. */
  predicate LeastInvariant(q: Problem, w: Work)
  {
    Accounts(q, w) && NonNegative(w.supply) && NonNegative(w.demand) &&
    NonNegativeMatrix(w.allocation) && Closed(q, w) &&
    Sum(w.supply) - Sum(w.demand) == Sum(q.supply) - Sum(q.demand)
  }

  lemma LeastStart(q: Problem)
    requires Rectangular(q) && NonNegativeQuantities(q)
    ensures LeastInvariant(q, Start(q)) && Open(Start(q)) <= |q.supply| + |q.demand|
  {
    NonZeroCountBound(q.supply);
    NonZeroCountBound(q.demand);
  }

  /** While the loop runs, some cell is eligible, so the scan's `(0, 0)`
      fallback is never used. */
  lemma EligibleExists(q: Problem, w: Work)
    requires LeastInvariant(q, w) && Running(w)
    ensures HasEligible(w.supply, w.demand)
  {
    var r :| 0 <= r < |w.supply| && w.supply[r] != 0;
    var c :| 0 <= c < |w.demand| && w.demand[c] != 0;
    assert Precedes(r, c, |w.supply|, 0) && Eligible(w.supply, w.demand, r, c);
  }

  /** One Least Cost step at the first cheapest eligible cell: the cell was
      empty, it receives a positive amount, its row or column is used up,
      fewer sources and destinations stay open, and the invariant holds. */
  lemma LeastStep(q: Problem, w: Work, at: Cell)
    requires LeastInvariant(q, w) && IsFirstCheapest(w.supply, w.demand, q.cost, at)
    ensures w.allocation[at.row][at.col] == 0
    ensures Ship(q, w, at.row, at.col).allocation[at.row][at.col] > 0
    ensures LeastInvariant(q, Ship(q, w, at.row, at.col))
    ensures Open(Ship(q, w, at.row, at.col)) < Open(w)
  {
    StepCloses(q, w, at.row, at.col);
    ShipEffect(q, w, at.row, at.col);
    ShipKeepsAccounts(q, w, at.row, at.col);
  }

  /** Shipping at a cell whose row and column are both open closes one of
      them and opens nothing. */
  lemma StepCloses(q: Problem, w: Work, i: nat, j: nat)
    requires Rectangular(q) && Fits(q, w) && i < |q.supply| && j < |q.demand|
    requires w.supply[i] > 0 && w.demand[j] > 0
    ensures Open(Ship(q, w, i, j)) < Open(w)
  {
    var w' := Ship(q, w, i, j);
    NonZeroCountUpdate(w.supply, i, w'.supply[i]);
    NonZeroCountUpdate(w.demand, j, w'.demand[j]);
    assert w'.supply == w.supply[i := w'.supply[i]];
    assert w'.demand == w.demand[j := w'.demand[j]];
  }

  /** When the loop stops on a balanced problem, every supply and demand is
      used up and the allocation is feasible. */
  lemma LeastEnd(q: Problem, w: Work)
    requires LeastInvariant(q, w) && !Running(w) && Balanced(q)
    ensures !Any(w.supply) && !Any(w.demand)
    ensures IsFeasible(q, w.allocation)
  {
    BothUsedUp(w.supply, w.demand);
    UsedUpIsFeasible(q, w);
  }

  /** The loop's guard: some source still has supply and some destination
      still has demand. */
  predicate Running(w: Work)
  {
    Any(w.supply) && Any(w.demand)
  }

  /** `w'` is `w` after one turn of the loop, which shipped at `at`. */
  predicate Stepped(q: Problem, w: Work, at: Cell, w': Work)
  {
    Rectangular(q) && Fits(q, w) && Running(w) &&
    Selected(w.supply, w.demand, q.cost, at) && at.row < |q.supply| && at.col < |q.demand| &&
    w' == Ship(q, w, at.row, at.col)
  }

  /** A state has at most one next turn: its cell and its successor are
      determined. */
  lemma SteppedUnique(q: Problem, w: Work, a: Cell, w1: Work, b: Cell, w2: Work)
    requires Stepped(q, w, a, w1) && Stepped(q, w, b, w2)
    ensures a == b && w1 == w2
  {
    SelectedUnique(w.supply, w.demand, q.cost, a, b);
  }

  /** `works` are the states of the loop from `Start(q)` on, and `cells` the
      cells it shipped at, one turn after another. */
  predicate Steps(q: Problem, works: seq<Work>, cells: seq<Cell>)
    requires Rectangular(q)
    decreases |cells|
  {
    |works| == |cells| + 1 &&
    if |cells| == 0 then works[0] == Start(q)
    else Steps(q, works[..|cells|], cells[..|cells| - 1]) &&
         Stepped(q, works[|cells| - 1], cells[|cells| - 1], works[|cells|])
  }

  /** A complete run of the loop: its turns, ending in a state where the
      guard fails. */
  predicate Run(q: Problem, works: seq<Work>, cells: seq<Cell>)
    requires Rectangular(q)
  {
    Steps(q, works, cells) && !Running(works[|cells|])
  }

  /** One more turn extends a run's steps. */
  lemma StepsExtend(q: Problem, works: seq<Work>, cells: seq<Cell>, at: Cell, w': Work)
    requires Rectangular(q) && Steps(q, works, cells) && Stepped(q, works[|cells|], at, w')
    ensures Steps(q, works + [w'], cells + [at])
  {
    assert (works + [w'])[..|cells| + 1] == works;
    assert (cells + [at])[..|cells|] == cells;
  }

  /** Steps, turn by turn: the loop starts from `Start(q)` and each state
      follows from the one before it by one turn. */
  lemma StepsEach(q: Problem, works: seq<Work>, cells: seq<Cell>)
    requires Rectangular(q)
    ensures Steps(q, works, cells) <==>
            |works| == |cells| + 1 && works[0] == Start(q) &&
            forall k :: 0 <= k < |cells| ==> Stepped(q, works[k], cells[k], works[k + 1])
  {
    if Steps(q, works, cells) {
      EachStepped(q, works, cells);
    } else if |works| == |cells| + 1 && works[0] == Start(q) {
      if forall k :: 0 <= k < |cells| ==> Stepped(q, works[k], cells[k], works[k + 1]) {
        SteppedEach(q, works, cells);
      }
    }
  }

  lemma EachStepped(q: Problem, works: seq<Work>, cells: seq<Cell>)
    requires Rectangular(q) && Steps(q, works, cells)
    ensures works[0] == Start(q)
    ensures forall k :: 0 <= k < |cells| ==> Stepped(q, works[k], cells[k], works[k + 1])
  {
    StepsPrefix(q, works, cells, 0);
    assert works[..1][0] == works[0];
    forall k | 0 <= k < |cells|
      ensures Stepped(q, works[k], cells[k], works[k + 1])
    {
      StepsPrefix(q, works, cells, k + 1);
      assert works[..k + 2][k] == works[k] && works[..k + 2][k + 1] == works[k + 1] && cells[..k + 1][k] == cells[k];
    }
  }

  lemma {:induction false} SteppedEach(q: Problem, works: seq<Work>, cells: seq<Cell>)
    requires Rectangular(q) && |works| == |cells| + 1 && works[0] == Start(q)
    requires forall k :: 0 <= k < |cells| ==> Stepped(q, works[k], cells[k], works[k + 1])
    ensures Steps(q, works, cells)
    decreases |cells|
  {
    var n := |cells|;
    if n > 0 {
      var front, first := works[..n], cells[..n - 1];
      assert forall k :: 0 <= k < n - 1 ==>
        Stepped(q, front[k], first[k], front[k + 1]) == Stepped(q, works[k], cells[k], works[k + 1]);
      SteppedEach(q, front, first);
    }
  }

  /** The first `k` turns of a run are the steps of a run too. */
  lemma {:induction false} StepsPrefix(q: Problem, works: seq<Work>, cells: seq<Cell>, k: nat)
    requires Rectangular(q) && Steps(q, works, cells) && k <= |cells|
    ensures Steps(q, works[..k + 1], cells[..k])
    decreases |cells| - k
  {
    var n := |cells|;
    if k < n {
      StepsPrefix(q, works[..n], cells[..n - 1], k);
      SliceOfSlice(works, n, k + 1);
      SliceOfSlice(cells, n - 1, k);
    } else {
      SliceWhole(works, k + 1);
      SliceWhole(cells, k);
    }
  }

  /** The loop ran on in every state but the last. */
  lemma StepsRunning(q: Problem, works: seq<Work>, cells: seq<Cell>, k: nat)
    requires Rectangular(q) && Steps(q, works, cells) && k < |cells|
    ensures Running(works[k])
  {
    StepsPrefix(q, works, cells, k + 1);
    assert works[..k + 2][k] == works[k];
  }

  /** The loop is deterministic: equally long steps from the same problem
      are the same. */
  lemma {:induction false} StepsUnique(q: Problem, works: seq<Work>, cells: seq<Cell>, works': seq<Work>, cells': seq<Cell>)
    requires Rectangular(q) && Steps(q, works, cells) && Steps(q, works', cells') && |cells| == |cells'|
    ensures works == works' && cells == cells'
  {
    var n := |cells|;
    if n > 0 {
      StepsUnique(q, works[..n], cells[..n - 1], works'[..n], cells'[..n - 1]);
      var w := works[n - 1];
      SelectedUnique(w.supply, w.demand, q.cost, cells[n - 1], cells'[n - 1]);
      SplitLast(works);
      SplitLast(works');
      SplitLast(cells);
      SplitLast(cells');
    }
  }

  /** No run's steps go on past the end of a complete run. */
  lemma RunIsLongest(q: Problem, works: seq<Work>, cells: seq<Cell>, works': seq<Work>, cells': seq<Cell>)
    requires Rectangular(q) && Run(q, works, cells) && Steps(q, works', cells')
    ensures |cells'| <= |cells|
  {
    var k := |cells|;
    if k < |cells'| {
      StepsPrefix(q, works', cells', k);
      StepsUnique(q, works, cells, works'[..k + 1], cells'[..k]);
      StepsRunning(q, works', cells', k);
      assert false;
    }
  }

  /** A problem has at most one complete run. */
  lemma RunUnique(q: Problem, works: seq<Work>, cells: seq<Cell>, works': seq<Work>, cells': seq<Cell>)
    requires Rectangular(q) && Run(q, works, cells) && Run(q, works', cells')
    ensures works == works' && cells == cells'
  {
    RunIsLongest(q, works, cells, works', cells');
    RunIsLongest(q, works', cells', works, cells);
    StepsUnique(q, works, cells, works', cells');
  }

  /** Every state of a run keeps the loop invariant, and each turn closes a
      source or a destination, so a run has at most `len(supply) +
      len(demand)` turns. */
  lemma {:induction false} StepsInvariant(q: Problem, works: seq<Work>, cells: seq<Cell>, w: Work)
    requires Rectangular(q) && NonNegativeQuantities(q) && Steps(q, works, cells) && w == works[|cells|]
    ensures LeastInvariant(q, w) && |cells| + Open(w) <= |q.supply| + |q.demand|
  {
    var n := |cells|;
    if n == 0 {
      LeastStart(q);
    } else {
      var before := works[n - 1];
      StepsInvariant(q, works[..n], cells[..n - 1], before);
      EligibleExists(q, before);
      LeastStep(q, before, cells[n - 1]);
    }
  }

  /** A turn from the last state of a run closes a source or a destination. */
  lemma TurnCloses(q: Problem, works: seq<Work>, cells: seq<Cell>, at: Cell)
    requires Rectangular(q) && NonNegativeQuantities(q) && Steps(q, works, cells)
    requires Running(works[|cells|]) && Selected(works[|cells|].supply, works[|cells|].demand, q.cost, at)
    ensures at.row < |q.supply| && at.col < |q.demand|
    ensures Open(Ship(q, works[|cells|], at.row, at.col)) < Open(works[|cells|])
  {
    var w := works[|cells|];
    StepsInvariant(q, works, cells, w);
    EligibleExists(q, w);
    LeastStep(q, w, at);
  }

  /** Cell `c` of the allocation holds a positive amount. */
  predicate Holds(w: Work, c: Cell)
  {
    c.row < |w.allocation| && c.col < |w.allocation[c.row]| && w.allocation[c.row][c.col] > 0
  }

  /** A turn never ships at a cell that already holds a shipment, and that
      shipment stays as it was. */
  lemma TurnKeepsFilled(q: Problem, w: Work, at: Cell, w': Work, c: Cell)
    requires LeastInvariant(q, w) && Stepped(q, w, at, w') && Holds(w, c)
    ensures at != c && Holds(w', c) && w'.allocation[c.row][c.col] == w.allocation[c.row][c.col]
  {
    EligibleExists(q, w);
    LeastStep(q, w, at);
    ShipEffect(q, w, at.row, at.col);
  }

  /** A turn leaves a positive amount at the cell it ships at. */
  lemma TurnFills(q: Problem, w: Work, at: Cell, w': Work)
    requires LeastInvariant(q, w) && Stepped(q, w, at, w')
    ensures Holds(w', at)
  {
    EligibleExists(q, w);
    LeastStep(q, w, at);
  }

  /** Turn `t` of a run starts from a state that keeps the loop invariant. */
  lemma RunTurn(q: Problem, works: seq<Work>, cells: seq<Cell>, t: nat)
    requires Rectangular(q) && NonNegativeQuantities(q) && Steps(q, works, cells) && t < |cells|
    ensures LeastInvariant(q, works[t]) && Stepped(q, works[t], cells[t], works[t + 1])
  {
    StepsPrefix(q, works, cells, t);
    assert works[..t + 1][t] == works[t];
    StepsInvariant(q, works[..t + 1], cells[..t], works[t]);
    EachStepped(q, works, cells);
  }

  /** Turn `t` of a run leaves a positive amount at its cell. */
  lemma RunFills(q: Problem, works: seq<Work>, cells: seq<Cell>, t: nat)
    requires Rectangular(q) && NonNegativeQuantities(q) && Steps(q, works, cells) && t < |cells|
    ensures Holds(works[t + 1], cells[t])
  {
    RunTurn(q, works, cells, t);
    TurnFills(q, works[t], cells[t], works[t + 1]);
  }

  /** Turn `t` of a run ships elsewhere than at a cell already holding a
      shipment, and leaves that shipment in place. */
  lemma RunKeeps(q: Problem, works: seq<Work>, cells: seq<Cell>, t: nat, c: Cell)
    requires Rectangular(q) && NonNegativeQuantities(q) && Steps(q, works, cells) && t < |cells|
    requires Holds(works[t], c)
    ensures cells[t] != c && Holds(works[t + 1], c)
  {
    RunTurn(q, works, cells, t);
    TurnKeepsFilled(q, works[t], cells[t], works[t + 1], c);
  }

  /** The cell shipped at on turn `a` holds a positive amount in every
      later state of the run. */
  lemma {:induction false} StaysFilled(q: Problem, works: seq<Work>, cells: seq<Cell>, a: nat, t: nat)
    requires Rectangular(q) && NonNegativeQuantities(q) && Steps(q, works, cells) && a < t <= |cells|
    ensures Holds(works[t], cells[a])
    decreases t
  {
    if t == a + 1 {
      RunFills(q, works, cells, a);
    } else {
      StaysFilled(q, works, cells, a, t - 1);
      RunKeeps(q, works, cells, t - 1, cells[a]);
    }
  }

  /** A run never ships at the same cell twice: a cell once chosen is never
      chosen again. */
  lemma CellsDistinct(q: Problem, works: seq<Work>, cells: seq<Cell>)
    requires Rectangular(q) && NonNegativeQuantities(q) && Steps(q, works, cells)
    ensures forall a, b :: 0 <= a < b < |cells| ==> cells[a] != cells[b]
  {
    forall a, b | 0 <= a < b < |cells|
      ensures cells[a] != cells[b]
    {
      StaysFilled(q, works, cells, a, b);
      RunKeeps(q, works, cells, b, cells[a]);
    }
  }

  /** The snapshots of the states after each turn. */
  function Snaps(q: Problem, works: seq<Work>): (t: seq<Snapshot>)
    requires |works| >= 1
    ensures |t| == |works| - 1
    ensures forall k :: 0 <= k < |t| ==> t[k] == Snap(q, works[k + 1])
    decreases |works|
  {
    if |works| == 1 then [] else Snaps(q, works[..|works| - 1]) + [Snap(q, works[|works| - 1])]
  }

  /** Every snapshot of a run accounts for every unit. */
  lemma {:induction false} SnapsRecorded(q: Problem, works: seq<Work>, cells: seq<Cell>)
    requires Rectangular(q) && NonNegativeQuantities(q) && Steps(q, works, cells)
    ensures AllRecorded(q, Snaps(q, works))
  {
    var n := |cells|;
    if n > 0 {
      SnapsRecorded(q, works[..n], cells[..n - 1]);
      StepsInvariant(q, works, cells, works[n]);
      RecordOne(q, Snaps(q, works[..n]), Snap(q, works[n]));
    }
  }

  /** Runs the loop: ships at the cell the scan selects until every source
      or every destination is used up, taking a snapshot after every step. */
  method Settle(q: Problem) returns (w: Work, trace: seq<Snapshot>, ghost works: seq<Work>, ghost cells: seq<Cell>)
    requires Rectangular(q) && NonNegativeQuantities(q)
    ensures Run(q, works, cells) && w == works[|cells|] && trace == Snaps(q, works)
    // the loop stops with some side used up, its invariant intact
    ensures !Running(w) && LeastInvariant(q, w)
  {
    w, trace := Start(q), [];
    works, cells := [w], [];
    LeastStart(q);
    while Running(w)
      invariant Steps(q, works, cells) && w == works[|cells|] && trace == Snaps(q, works)
      decreases Open(w)
    {
      var at := SelectCheapest(w.supply, w.demand, q.cost);
      TurnCloses(q, works, cells, at);
      var w' := Ship(q, w, at.row, at.col);
      StepsExtend(q, works, cells, at, w');
      w, trace := w', trace + [Snap(q, w')];
      works, cells := works + [w'], cells + [at];
      assert works[..|works| - 1] == works[..|cells|];
    }
    StepsInvariant(q, works, cells, w);
  }

  /** The Least Cost allocation loop on an already balanced problem. Its
      result is the final state of the problem's one complete run. */
  method LeastCost(q: Problem) returns (sol: Solution, ghost works: seq<Work>, ghost cells: seq<Cell>)
    requires Rectangular(q) && NonNegativeQuantities(q)
    ensures Run(q, works, cells)
    ensures sol.allocation == works[|cells|].allocation && sol.totalCost == works[|cells|].total
    ensures |sol.trace| == |cells| && forall k :: 0 <= k < |cells| ==> sol.trace[k] == Snap(q, works[k + 1])
    // no cell is shipped at twice
    ensures forall a, b :: 0 <= a < b < |cells| ==> cells[a] != cells[b]
    ensures IsMatrix(sol.allocation, |q.supply|, |q.demand|) && NonNegativeMatrix(sol.allocation)
    ensures sol.totalCost == Weighted(sol.allocation, q.cost)
    ensures Balanced(q) ==> IsFeasible(q, sol.allocation)
    // at most one step per source or destination, each recorded
    ensures |sol.trace| <= |q.supply| + |q.demand|
    ensures AllRecorded(q, sol.trace)
  {
    var w, trace;
    w, trace, works, cells := Settle(q);
    StepsInvariant(q, works, cells, w);
    SnapsRecorded(q, works, cells);
    CellsDistinct(q, works, cells);
    if Balanced(q) {
      LeastEnd(q, w);
    }
    sol := Solution(w.allocation, w.total, trace);
  }

  /** `least_cost_method`: balance the problem, then run the loop on it. */
  method LeastCostMethod(p: Problem) returns (sol: Solution, ghost works: seq<Work>, ghost cells: seq<Cell>)
    requires Balanceable(p) && NonNegativeQuantities(p)
    // the result is the last state of the balanced problem's complete run
    ensures Run(BalanceProblem(p), works, cells)
    ensures sol.allocation == works[|cells|].allocation && sol.totalCost == works[|cells|].total
    // one snapshot per turn, of the state after that turn
    ensures |sol.trace| == |cells| && forall k :: 0 <= k < |cells| ==> sol.trace[k] == Snap(BalanceProblem(p), works[k + 1])
    ensures IsFeasible(BalanceProblem(p), sol.allocation)
    ensures sol.totalCost == Weighted(sol.allocation, BalanceProblem(p).cost)
    ensures NonNegativeMatrix(p.cost) ==> sol.totalCost >= 0
  {
    var q := BalanceProblem(p);
    sol, works, cells := LeastCost(q);
    if NonNegativeMatrix(p.cost) {
      WeightedNonNegative(sol.allocation, q.cost);
    }
  }
}

=== FILE: leastcost_scenario.dfy ===
/**
  The Least Cost loop on a three-by-three problem, turn by turn: the cells
  it picks, the amounts it ships and the total it returns.
 */
module LeastCostScenario {
  import opened Grid
  import opened Balance
  import opened Shipment
  import opened LeastCost

  /** Supplies 20, 30, 25, demands 10, 25, 40 and unit costs
      4 8 8 / 16 24 16 / 8 16 24. */
  const Example: Problem := Problem([20, 30, 25], [10, 25, 40], [[4, 8, 8], [16, 24, 16], [8, 16, 24]])

  /** The states of the loop, before the first turn and after each turn. */
  const W0: Work := Work([20, 30, 25], [10, 25, 40], [[0, 0, 0], [0, 0, 0], [0, 0, 0]], 0)
  const W1: Work := Work([10, 30, 25], [0, 25, 40], [[10, 0, 0], [0, 0, 0], [0, 0, 0]], 40)
  const W2: Work := Work([0, 30, 25], [0, 15, 40], [[10, 10, 0], [0, 0, 0], [0, 0, 0]], 120)
  const W3: Work := Work([0, 0, 25], [0, 15, 10], [[10, 10, 0], [0, 0, 30], [0, 0, 0]], 600)
  const W4: Work := Work([0, 0, 10], [0, 0, 10], [[10, 10, 0], [0, 0, 30], [0, 15, 0]], 840)
  const W5: Work := Work([0, 0, 0], [0, 0, 0], [[10, 10, 0], [0, 0, 30], [0, 15, 10]], 1080)

  /** The loop starts from `W0`. */
  lemma ExampleStart()
    ensures Rectangular(Example) && Start(Example) == W0
  {
    assert ZeroRow(3) == [0, 0, 0];
  }

  /** Turn 1: every cell is open and (0, 0) is the cheapest at 4; it takes 10, closing destination 0. */
  lemma Pick1()
    ensures Selected(W0.supply, W0.demand, Example.cost, Cell(0, 0))
  {
    assert Precedes(0, 0, 3, 0) && Eligible(W0.supply, W0.demand, 0, 0);
  }

  lemma Ship1()
    ensures Ship(Example, W0, 0, 0) == W1
  {
    var w' := Ship(Example, W0, 0, 0);
    assert w'.supply == W1.supply && w'.demand == W1.demand;
    assert w'.allocation[0] == W1.allocation[0];
    assert w'.allocation == W1.allocation;
  }

  lemma Turn1()
    ensures Stepped(Example, W0, Cell(0, 0), W1)
  {
    Pick1();
    Ship1();
    assert W0.supply[0] > 0 && W0.demand[0] > 0;
  }

  /** Turn 2: (0, 1) and (0, 2) tie at 8 and the first wins; it takes source 0's last 10. */
  lemma Pick2()
    ensures Selected(W1.supply, W1.demand, Example.cost, Cell(0, 1))
  {
    assert Precedes(0, 1, 3, 0) && Eligible(W1.supply, W1.demand, 0, 1);
  }

  lemma Ship2()
    ensures Ship(Example, W1, 0, 1) == W2
  {
    var w' := Ship(Example, W1, 0, 1);
    assert w'.supply == W2.supply && w'.demand == W2.demand;
    assert w'.allocation[0] == W2.allocation[0];
    assert w'.allocation == W2.allocation;
  }

  lemma Turn2()
    ensures Stepped(Example, W1, Cell(0, 1), W2)
  {
    Pick2();
    Ship2();
    assert W1.supply[0] > 0 && W1.demand[1] > 0;
  }

  /** Turn 3: (1, 2) and (2, 1) tie at 16 and the first wins; it takes 30, closing source 1. */
  lemma Pick3()
    ensures Selected(W2.supply, W2.demand, Example.cost, Cell(1, 2))
  {
    assert Precedes(1, 2, 3, 0) && Eligible(W2.supply, W2.demand, 1, 2);
  }

  lemma Ship3()
    ensures Ship(Example, W2, 1, 2) == W3
  {
    var w' := Ship(Example, W2, 1, 2);
    assert w'.supply == W3.supply && w'.demand == W3.demand;
    assert w'.allocation[1] == W3.allocation[1];
    assert w'.allocation == W3.allocation;
  }

  lemma Turn3()
    ensures Stepped(Example, W2, Cell(1, 2), W3)
  {
    Pick3();
    Ship3();
    assert W2.supply[1] > 0 && W2.demand[2] > 0;
  }

  /** Turn 4: (2, 1) at 16 beats (2, 2) at 24; it takes 15, closing destination 1. */
  lemma Pick4()
    ensures Selected(W3.supply, W3.demand, Example.cost, Cell(2, 1))
  {
    assert Precedes(2, 1, 3, 0) && Eligible(W3.supply, W3.demand, 2, 1);
  }

  lemma Ship4()
    ensures Ship(Example, W3, 2, 1) == W4
  {
    var w' := Ship(Example, W3, 2, 1);
    assert w'.supply == W4.supply && w'.demand == W4.demand;
    assert w'.allocation[2] == W4.allocation[2];
    assert w'.allocation == W4.allocation;
  }

  lemma Turn4()
    ensures Stepped(Example, W3, Cell(2, 1), W4)
  {
    Pick4();
    Ship4();
    assert W3.supply[2] > 0 && W3.demand[1] > 0;
  }

  /** Turn 5: only (2, 2) is left; it takes the last 10 on both sides. */
  lemma Pick5()
    ensures Selected(W4.supply, W4.demand, Example.cost, Cell(2, 2))
  {
    assert Precedes(2, 2, 3, 0) && Eligible(W4.supply, W4.demand, 2, 2);
  }

  lemma Ship5()
    ensures Ship(Example, W4, 2, 2) == W5
  {
    var w' := Ship(Example, W4, 2, 2);
    assert w'.supply == W5.supply && w'.demand == W5.demand;
    assert w'.allocation[2] == W5.allocation[2];
    assert w'.allocation == W5.allocation;
  }

  lemma Turn5()
    ensures Stepped(Example, W4, Cell(2, 2), W5)
  {
    Pick5();
    Ship5();
    assert W4.supply[2] > 0 && W4.demand[2] > 0;
  }

  /** The states and cells of the example's run, one turn after another. */
  const Works: seq<Work> := [W0, W1, W2, W3, W4, W5]
  const Cells: seq<Cell> := [Cell(0, 0), Cell(0, 1), Cell(1, 2), Cell(2, 1), Cell(2, 2)]

  /** Turn `k + 1` of the example's run. */
  lemma ExampleTurn(k: nat)
    requires k < 5
    ensures Stepped(Example, Works[k], Cells[k], Works[k + 1])
  {
    if k == 0 {
      Turn1();
    } else if k == 1 {
      Turn2();
    } else if k == 2 {
      Turn3();
    } else if k == 3 {
      Turn4();
    } else {
      Turn5();
    }
  }

  /** The five turns form a complete run: after `W5` nothing is left. */
  lemma ExampleRun()
    ensures Rectangular(Example) && Run(Example, Works, Cells)
  {
    ExampleStart();
    forall k | 0 <= k < |Cells|
      ensures Stepped(Example, Works[k], Cells[k], Works[k + 1])
    {
      ExampleTurn(k);
    }
    StepsEach(Example, Works, Cells);
  }

  /** Least Cost on the example picks (0, 0), (0, 1), (1, 2), (2, 1) and
      (2, 2), ships 10, 10, 30, 15 and 10 there, and returns a total of 1080. */
  lemma LeastCostExample(works: seq<Work>, cells: seq<Cell>)
    requires Rectangular(Example) && Run(Example, works, cells)
    ensures cells == [Cell(0, 0), Cell(0, 1), Cell(1, 2), Cell(2, 1), Cell(2, 2)]
    ensures works[|cells|].allocation == [[10, 10, 0], [0, 0, 30], [0, 15, 10]]
    ensures works[|cells|].total == 1080
  {
    ExampleRun();
    RunUnique(Example, works, cells, Works, Cells);
  }

  /** Why the Least Cost loop needs non-negative quantities: on the balanced
      supplies 0, -1 and demands 0, -1 the guard holds, no cell is eligible,
      the scan falls back to (0, 0), and shipping there changes nothing, so
      the loop never stops. */
  lemma StallsOnNegative()
    ensures var q := Problem([0, -1], [0, -1], [[1, 1], [1, 1]]);
      && Rectangular(q) && Balanced(q)
      && Running(Start(q)) && !HasEligible(q.supply, q.demand)
      && Selected(q.supply, q.demand, q.cost, Cell(0, 0))
      && Ship(q, Start(q), 0, 0) == Start(q)
  {
    var q := Problem([0, -1], [0, -1], [[1, 1], [1, 1]]);
    assert q.supply[..1] == [0] && q.demand[..1] == [0];
    assert Sum(q.supply) == -1 && Sum(q.demand) == -1;
    assert ZeroRow(2) == [0, 0];
    assert Start(q).supply[0] == 0 && Start(q).supply[1] == -1;
    var w := Ship(q, Start(q), 0, 0);
    assert w.supply == q.supply && w.demand == q.demand;
    assert w.allocation[0] == Start(q).allocation[0];
    assert w.allocation == Start(q).allocation;
  }
}

=== FILE: northwest.dfy ===
/**
  The Northwest Corner method (`northwest_method` in main.py, its loop at
  lines 207-224).

  A cursor starts at the top-left cell. At each cell it ships as much as
  the row's remaining supply and the column's remaining demand allow, then
  moves down if the row is used up and right otherwise. When the row and the
  column are used up by the same step, the row wins and the cursor moves down.

  Besides the accounting every allocation method keeps, the result has a
  closed form, `NorthwestMatrix`. Lay the supplies end to end on a line, so
  source `r` owns the slice from the sum of the first `r` supplies to the
  sum of the first `r + 1`, and lay the demands end to end on a second line.
  Then the amount shipped from `r` to `c` is the length of the overlap of
  source `r`'s slice with destination `c`'s slice.
 */
module Northwest {
  import opened Grid
  import opened Balance
  import opened Shipment

  /** The length of the overlap of source `r`'s slice of the cumulative
      supply line with destination `c`'s slice of the cumulative demand line. */
  function Overlap(supply: seq<int>, demand: seq<int>, r: nat, c: nat): int
    requires r < |supply| && c < |demand|
  {
    Max(0, Min(Prefix(supply, r + 1), Prefix(demand, c + 1)) - Max(Prefix(supply, r), Prefix(demand, c)))
  }

  /** The northwest-corner allocation in closed form: cell `(r, c)` holds
      `Overlap(supply, demand, r, c)`. */
  function NorthwestMatrix(supply: seq<int>, demand: seq<int>): (m: Matrix)
    ensures IsMatrix(m, |supply|, |demand|) && NonNegativeMatrix(m)
  {
    seq(|supply|, r requires 0 <= r < |supply| =>
      seq(|demand|, c requires 0 <= c < |demand| => Overlap(supply, demand, r, c)))
  }

  /** One iteration of the loop: allocate at the cursor, then move it. */
  function NorthwestStep(q: Problem, w: Work, at: Cell): (next: (Cell, Work))
    requires Rectangular(q) && Fits(q, w) && at.row < |q.supply| && at.col < |q.demand|
    ensures next.1 == Ship(q, w, at.row, at.col)
    // exactly one step, down or right, so no cell is visited twice
    ensures next.0 == Cell(at.row + 1, at.col) || next.0 == Cell(at.row, at.col + 1)
    // down exactly when the row is used up, even if the column is used up too
    ensures next.0.row == at.row + 1 <==> next.1.supply[at.row] == 0
    // right only when the column is used up
    ensures next.0.col == at.col + 1 ==> next.1.demand[at.col] == 0
  {
    var w' := Ship(q, w, at.row, at.col);
    if w'.supply[at.row] == 0 then (Cell(at.row + 1, at.col), w') else (Cell(at.row, at.col + 1), w')
  }

  /** Units shipped so far: what the sources no longer have. */
  function Shipped(q: Problem, w: Work): int
  {
    Sum(q.supply) - Sum(w.supply)
  }

  /** Where the cursor stands on the two cumulative lines: the units shipped
      so far are at least everything the rows above the cursor supply and
      everything the columns left of it demand, and exactly one of the two. */
  ghost predicate Frontier(q: Problem, w: Work, at: Cell)
  {
    at.row <= |q.supply| && at.col <= |q.demand| &&
    Prefix(q.supply, at.row) <= Shipped(q, w) && Prefix(q.demand, at.col) <= Shipped(q, w) &&
    (Shipped(q, w) == Prefix(q.supply, at.row) || Shipped(q, w) == Prefix(q.demand, at.col))
  }

  /** The remaining supply and demand around the cursor: rows above it and
      columns left of it are used up, rows below it and columns right of it
      are untouched, and the cursor's row and column hold what is left of
      their slices. */
  ghost predicate Remaining(q: Problem, w: Work, at: Cell)
    requires Frontier(q, w, at)
  {
    Fits(q, w) && NonNegative(w.supply) && NonNegative(w.demand) &&
    (at.row < |q.supply| ==> w.supply[at.row] == Prefix(q.supply, at.row + 1) - Shipped(q, w)) &&
    (at.col < |q.demand| ==> w.demand[at.col] == Prefix(q.demand, at.col + 1) - Shipped(q, w)) &&
    (forall r :: 0 <= r < |q.supply| && r != at.row ==>
       w.supply[r] == if r < at.row then 0 else q.supply[r]) &&
    (forall c :: 0 <= c < |q.demand| && c != at.col ==>
       w.demand[c] == if c < at.col then 0 else q.demand[c])
  }

  /** Every cell before the cursor in row-major order holds its
      closed-form amount; every other cell is still empty. */
  ghost predicate Filled(q: Problem, w: Work, at: Cell)
  {
    Fits(q, w) &&
    forall r, c :: 0 <= r < |q.supply| && 0 <= c < |q.demand| ==>
      w.allocation[r][c] == if Precedes(r, c, at.row, at.col) then Overlap(q.supply, q.demand, r, c) else 0
  }

  /** The northwest-corner loop invariant: the shared accounting, the
      cursor's position on the cumulative lines, the remainders and the
      filled cells, and equal amounts taken off both sides. */
  ghost predicate AtCorner(q: Problem, w: Work, at: Cell)
  {
    Accounts(q, w) && Frontier(q, w, at) && Remaining(q, w, at) && Filled(q, w, at) &&
    Sum(w.supply) - Sum(w.demand) == Sum(q.supply) - Sum(q.demand)
  }

  lemma CornerStart(q: Problem)
    requires Rectangular(q) && NonNegativeQuantities(q)
    ensures AtCorner(q, Start(q), Cell(0, 0))
  {
    assert q.supply[..0] == [] && q.demand[..0] == [];
    if |q.supply| > 0 {
      PrefixStep(q.supply, 0);
    }
    if |q.demand| > 0 {
      PrefixStep(q.demand, 0);
    }
  }

  /** A cell whose source slice ends before its destination slice starts,
      or the other way round, is empty in the closed form. */
  lemma OverlapVanishes(q: Problem, r: nat, c: nat)
    requires r < |q.supply| && c < |q.demand|
    requires Prefix(q.supply, r + 1) <= Prefix(q.demand, c) || Prefix(q.demand, c + 1) <= Prefix(q.supply, r)
    ensures Overlap(q.supply, q.demand, r, c) == 0
  {
  }

  /** The step writes the closed-form amount into the cursor's cell and
      ships exactly that much. */
  lemma CursorCell(q: Problem, w: Work, at: Cell)
    requires Rectangular(q) && Frontier(q, w, at) && Remaining(q, w, at)
    requires at.row < |q.supply| && at.col < |q.demand|
    ensures Ship(q, w, at.row, at.col).allocation[at.row][at.col]
         == Overlap(q.supply, q.demand, at.row, at.col)
         == Min(Prefix(q.supply, at.row + 1), Prefix(q.demand, at.col + 1)) - Shipped(q, w)
  {
  }

  /** After a step the shipping stands at the end of the used-up row's
      slice (cursor moved down) or the used-up column's slice (moved right). */
  lemma StepShipped(q: Problem, w: Work, at: Cell)
    requires Rectangular(q) && NonNegativeQuantities(q) && Frontier(q, w, at) && Remaining(q, w, at)
    requires Inside(q, at)
    ensures var (next, w') := NorthwestStep(q, w, at);
      if next.row == at.row + 1 then Shipped(q, w') == Prefix(q.supply, at.row + 1)
      else Shipped(q, w') == Prefix(q.demand, at.col + 1)
  {
    CursorCell(q, w, at);
    ShipEffect(q, w, at.row, at.col);
  }

  lemma {:induction false} StepFrontier(q: Problem, w: Work, at: Cell)
    requires Rectangular(q) && NonNegativeQuantities(q) && Frontier(q, w, at) && Remaining(q, w, at)
    requires Inside(q, at)
    ensures Frontier(q, NorthwestStep(q, w, at).1, NorthwestStep(q, w, at).0)
  {
    StepShipped(q, w, at);
    CursorCell(q, w, at);
    PrefixStep(q.supply, at.row);
    PrefixStep(q.demand, at.col);
  }

  lemma {:induction false} StepRemaining(q: Problem, w: Work, at: Cell)
    requires Rectangular(q) && NonNegativeQuantities(q) && Frontier(q, w, at) && Remaining(q, w, at)
    requires Inside(q, at)
    ensures Frontier(q, NorthwestStep(q, w, at).1, NorthwestStep(q, w, at).0)
    ensures Remaining(q, NorthwestStep(q, w, at).1, NorthwestStep(q, w, at).0)
  {
    var (next, w') := NorthwestStep(q, w, at);
    var i, j := at.row, at.col;
    StepFrontier(q, w, at);
    StepShipped(q, w, at);
    PrefixStep(q.supply, i);
    PrefixStep(q.demand, j);
    if next.row == i + 1 {
      if i + 1 < |q.supply| {
        PrefixStep(q.supply, i + 1);
      }
    } else {
      if j + 1 < |q.demand| {
        PrefixStep(q.demand, j + 1);
      }
    }
  }

  lemma {:induction false} StepFilled(q: Problem, w: Work, at: Cell)
    requires Rectangular(q) && NonNegativeQuantities(q) && Frontier(q, w, at) && Remaining(q, w, at)
    requires Filled(q, w, at) && Inside(q, at)
    ensures Filled(q, NorthwestStep(q, w, at).1, NorthwestStep(q, w, at).0)
  {
    var (next, w') := NorthwestStep(q, w, at);
    var i, j := at.row, at.col;
    var m, n := |q.supply|, |q.demand|;
    CursorCell(q, w, at);
    StepShipped(q, w, at);
    if next.row == i + 1 {
      // the row is used up: its slice ends where the shipping now stands,
      // so the rest of row i and the start of row i + 1 stay empty
      forall c | j < c < n
        ensures Overlap(q.supply, q.demand, i, c) == 0
      {
        PrefixMonotone(q.demand, j + 1, c);
        OverlapVanishes(q, i, c);
      }
      if i + 1 < m {
        var below := i + 1;
        forall c | 0 <= c < j
          ensures Overlap(q.supply, q.demand, below, c) == 0
        {
          PrefixMonotone(q.demand, c + 1, j);
          OverlapVanishes(q, below, c);
        }
      }
    }
  }

  /** One step keeps the whole invariant. */
  lemma CornerStep(q: Problem, w: Work, at: Cell)
    requires NonNegativeQuantities(q) && AtCorner(q, w, at)
    requires Inside(q, at)
    ensures AtCorner(q, NorthwestStep(q, w, at).1, NorthwestStep(q, w, at).0)
  {
    StepRemaining(q, w, at);
    StepFilled(q, w, at);
    ShipEffect(q, w, at.row, at.col);
    ShipKeepsAccounts(q, w, at.row, at.col);
  }

  /** The loop's guard: the cursor is still inside the matrix. */
  predicate Inside(q: Problem, at: Cell)
  {
    at.row < |q.supply| && at.col < |q.demand|
  }

  /** One turn of the loop: a step while the cursor is inside, nothing after. */
  function Turn(q: Problem, s: (Cell, Work)): (s': (Cell, Work))
    requires Rectangular(q) && Fits(q, s.1) && s.0.row <= |q.supply| && s.0.col <= |q.demand|
    ensures Fits(q, s'.1) && s'.0.row <= |q.supply| && s'.0.col <= |q.demand|
    // the cursor moves at most one cell, and only down or right
    ensures s'.0.row >= s.0.row && s'.0.col >= s.0.col
    ensures s'.0.row + s'.0.col <= s.0.row + s.0.col + 1
  {
    if Inside(q, s.0) then NorthwestStep(q, s.1, s.0) else s
  }

  /** The state of the loop after `k` turns. */
  function Iterate(q: Problem, k: nat): (s: (Cell, Work))
    requires Rectangular(q)
    ensures Fits(q, s.1) && s.0.row <= |q.supply| && s.0.col <= |q.demand|
    ensures s.0.row + s.0.col <= k
  {
    if k == 0 then (Cell(0, 0), Start(q)) else Turn(q, Iterate(q, k - 1))
  }

  /** Once the cursor has left the matrix, further turns change nothing. */
  lemma {:induction false} IterateStops(q: Problem, k: nat, t: nat)
    requires Rectangular(q) && !Inside(q, Iterate(q, k).0) && k <= t
    ensures Iterate(q, t) == Iterate(q, k)
    decreases t
  {
    if t > k {
      IterateStops(q, k, t - 1);
    }
  }

  /** If `k` turns moved the cursor `k` cells, the guard held before each of
      them: each was a real pass of the loop. */
  lemma IteratePasses(q: Problem, k: nat)
    requires Rectangular(q) && Iterate(q, k).0.row + Iterate(q, k).0.col == k
    ensures forall t :: 0 <= t < k ==> Inside(q, Iterate(q, t).0)
  {
    forall t | 0 <= t < k
      ensures Inside(q, Iterate(q, t).0)
    {
      if !Inside(q, Iterate(q, t).0) {
        // the cursor would have stopped there, at most t cells in
        IterateStops(q, t, k);
        assert false;
      }
    }
  }

  /** A turn keeps the loop invariant. */
  lemma TurnAtCorner(q: Problem, s: (Cell, Work))
    requires Rectangular(q) && NonNegativeQuantities(q) && AtCorner(q, s.1, s.0)
    ensures AtCorner(q, Turn(q, s).1, Turn(q, s).0)
  {
    if Inside(q, s.0) {
      CornerStep(q, s.1, s.0);
    }
  }

  /** Every iterate satisfies the loop invariant. */
  lemma {:induction false} IterateAtCorner(q: Problem, k: nat, s: (Cell, Work))
    requires Rectangular(q) && NonNegativeQuantities(q) && s == Iterate(q, k)
    ensures AtCorner(q, s.1, s.0)
  {
    if k == 0 {
      CornerStart(q);
    } else {
      var before := Iterate(q, k - 1);
      IterateAtCorner(q, k - 1, before);
      TurnAtCorner(q, before);
    }
  }

  /** The snapshots taken after turns 1 to `k`. */
  function Trace(q: Problem, k: nat): (t: seq<Snapshot>)
    requires Rectangular(q)
    ensures |t| == k
    ensures k > 0 ==> t[k - 1] == Snap(q, Iterate(q, k).1)
  {
    if k == 0 then [] else Trace(q, k - 1) + [Snap(q, Iterate(q, k).1)]
  }

  /** Snapshot `i` of the trace is the state after step `i + 1`. */
  lemma {:induction false} TraceAt(q: Problem, k: nat)
    requires Rectangular(q)
    ensures forall i :: 0 <= i < k ==> Trace(q, k)[i] == Snap(q, Iterate(q, i + 1).1)
  {
    if k > 0 {
      TraceAt(q, k - 1);
      AppendKeeps(Trace(q, k - 1), Snap(q, Iterate(q, k).1));
    }
  }

  /** Every snapshot in the trace accounts for every unit. */
  lemma {:induction false} TraceRecorded(q: Problem, k: nat)
    requires Rectangular(q) && NonNegativeQuantities(q)
    ensures AllRecorded(q, Trace(q, k))
  {
    if k > 0 {
      TraceRecorded(q, k - 1);
      IterateAtCorner(q, k, Iterate(q, k));
      RecordOne(q, Trace(q, k - 1), Snap(q, Iterate(q, k).1));
    }
  }

  /** When the cursor has left the matrix, every cell holds its closed-form
      amount. */
  lemma CornerEndMatrix(q: Problem, w: Work, at: Cell)
    requires NonNegativeQuantities(q) && Frontier(q, w, at) && Remaining(q, w, at) && Filled(q, w, at)
    requires !Inside(q, at)
    ensures w.allocation == NorthwestMatrix(q.supply, q.demand)
  {
    var m, n := |q.supply|, |q.demand|;
    var nw := NorthwestMatrix(q.supply, q.demand);
    forall r, c | 0 <= r < m && 0 <= c < n && !Precedes(r, c, at.row, at.col)
      ensures Overlap(q.supply, q.demand, r, c) == 0
    {
      // the cursor left through the right edge and row r is below it
      assert at.col == n && at.row < r;
      PrefixWhole(q.demand);
      PrefixMonotone(q.demand, c + 1, n);
      PrefixMonotone(q.supply, at.row + 1, r);
      OverlapVanishes(q, r, c);
    }
    forall r | 0 <= r < m
      ensures w.allocation[r] == nw[r]
    {
    }
  }

  lemma CornerEndFeasible(q: Problem, w: Work, at: Cell)
    requires NonNegativeQuantities(q) && AtCorner(q, w, at) && !Inside(q, at) && Balanced(q)
    ensures IsFeasible(q, w.allocation)
  {
    if at.row == |q.supply| {
      assert !Any(w.supply);
    } else {
      assert !Any(w.demand);
    }
    BothUsedUp(w.supply, w.demand);
    CornerEndMatrix(q, w, at);
    UsedUpIsFeasible(q, w);
  }

  /** When the cursor leaves the matrix, every cell holds its closed-form
      amount, the total is the cost of the allocation, and a balanced
      problem is fully shipped. */
  lemma CornerEnd(q: Problem, k: nat)
    requires Rectangular(q) && NonNegativeQuantities(q)
    requires !Inside(q, Iterate(q, k).0)
    ensures Iterate(q, k).1.allocation == NorthwestMatrix(q.supply, q.demand)
    ensures Iterate(q, k).1.total == Weighted(Iterate(q, k).1.allocation, q.cost)
    ensures Balanced(q) ==> IsFeasible(q, Iterate(q, k).1.allocation)
  {
    var (at, w) := Iterate(q, k);
    IterateAtCorner(q, k, Iterate(q, k));
    CornerEndMatrix(q, w, at);
    if Balanced(q) {
      CornerEndFeasible(q, w, at);
    }
  }

  /** Runs the loop: moves the cursor until it leaves the matrix, taking a
      snapshot after every step. */
  method Walk(q: Problem) returns (k: nat, s: (Cell, Work), trace: seq<Snapshot>)
    requires Rectangular(q)
    ensures s == Iterate(q, k) && trace == Trace(q, k) && !Inside(q, s.0)
    ensures k == s.0.row + s.0.col
    ensures k == 0 || k < |q.supply| + |q.demand|
  {
    var m, n := |q.supply|, |q.demand|;
    k, s, trace := 0, (Cell(0, 0), Start(q)), [];
    while s.0.row < m && s.0.col < n
      invariant s == Iterate(q, k) && trace == Trace(q, k)
      invariant k == s.0.row + s.0.col && (s.0.row < m || s.0.col < n || k == 0)
      decreases m + n - k
    {
      s := NorthwestStep(q, s.1, s.0);
      trace := trace + [Snap(q, s.1)];
      k := k + 1;
    }
  }

  /** The Northwest Corner allocation loop on an already balanced problem.
      It takes `k` steps and records the state after each of them. */
  method NorthwestCorner(q: Problem) returns (sol: Solution, ghost k: nat)
    requires Rectangular(q) && NonNegativeQuantities(q)
    ensures sol.allocation == NorthwestMatrix(q.supply, q.demand)
    ensures sol.totalCost == Weighted(sol.allocation, q.cost)
    ensures Balanced(q) ==> IsFeasible(q, sol.allocation)
    // one snapshot per step, of the state after that step; each step moves
    // the cursor one cell down or right
    ensures |sol.trace| == k && forall t :: 0 <= t < k ==> sol.trace[t] == Snap(q, Iterate(q, t + 1).1)
    ensures !Inside(q, Iterate(q, k).0) && sol.allocation == Iterate(q, k).1.allocation
    // `k` is the number of passes: the guard held before each of them
    ensures forall t :: 0 <= t < k ==> Inside(q, Iterate(q, t).0)
    ensures |sol.trace| == 0 || |sol.trace| < |q.supply| + |q.demand|
    ensures AllRecorded(q, sol.trace)
    ensures |sol.trace| > 0 ==> sol.trace[|sol.trace| - 1].allocation == sol.allocation
  {
    var s, trace;
    k, s, trace := Walk(q);
    CornerEnd(q, k);
    TraceRecorded(q, k);
    TraceAt(q, k);
    IteratePasses(q, k);
    sol := Solution(s.1.allocation, s.1.total, trace);
  }

  /** `northwest_method`: balance the problem, then run the loop on it. */
  method NorthwestMethod(p: Problem) returns (sol: Solution, ghost k: nat)
    requires Balanceable(p) && NonNegativeQuantities(p)
    // one snapshot per pass of the loop on the balanced problem, `k` passes in all
    ensures var q := BalanceProblem(p);
      && |sol.trace| == k && (forall t :: 0 <= t < k ==> sol.trace[t] == Snap(q, Iterate(q, t + 1).1))
      && !Inside(q, Iterate(q, k).0) && (forall t :: 0 <= t < k ==> Inside(q, Iterate(q, t).0))
    ensures IsFeasible(BalanceProblem(p), sol.allocation)
    ensures sol.allocation == NorthwestMatrix(BalanceProblem(p).supply, BalanceProblem(p).demand)
    ensures sol.totalCost == Weighted(sol.allocation, BalanceProblem(p).cost)
    ensures NonNegativeMatrix(p.cost) ==> sol.totalCost >= 0
  {
    var q := BalanceProblem(p);
    sol, k := NorthwestCorner(q);
    if NonNegativeMatrix(p.cost) {
      WeightedNonNegative(sol.allocation, q.cost);
    }
  }
}

=== FILE: scenarios.dfy ===
/**
  Worked instances of the model on small problems: the balancing of a
  problem with a supply surplus, the Northwest Corner allocation of a
  three-by-three problem together with its cost, and the one-pass runs of
  the Northwest Corner loop.
 */
module Scenarios {
  import opened Grid
  import opened Balance
  import opened Shipment
  import opened Northwest

  /** Supplies 10 and 10 against demands 5 and 5: a dummy destination of
      demand 10 is added, reached from both sources at zero cost. */
  lemma BalanceSurplusExample()
    ensures BalanceProblem(Problem([10, 10], [5, 5], [[1, 2], [3, 4]]))
         == Problem([10, 10], [5, 5, 10], [[1, 2, 0], [3, 4, 0]])
  {
    var p := Problem([10, 10], [5, 5], [[1, 2], [3, 4]]);
    assert p.supply[..1] == [10] && p.demand[..1] == [5];
    assert Sum(p.supply) == 20 && Sum(p.demand) == 10;
    var q := BalanceProblem(p);
    assert q.cost[0] == [1, 2, 0] && q.cost[1] == [3, 4, 0];
  }

  /** Supplies 20, 30, 25 and demands 10, 25, 40: the cursor sweeps the
      diagonal, shipping 10, 10, 15, 15 and 25. */
  lemma NorthwestExample()
    ensures NorthwestMatrix([20, 30, 25], [10, 25, 40]) == [[10, 10, 0], [0, 15, 15], [0, 0, 25]]
  {
    var s, d := [20, 30, 25], [10, 25, 40];
    assert s[..0] == [] && d[..0] == [];
    PrefixStep(s, 0);
    PrefixStep(s, 1);
    PrefixStep(s, 2);
    PrefixStep(d, 0);
    PrefixStep(d, 1);
    PrefixStep(d, 2);
    var nw := NorthwestMatrix(s, d);
    assert nw[0] == [10, 10, 0] && nw[1] == [0, 15, 15] && nw[2] == [0, 0, 25];
  }

  /** The cost of that allocation under the unit costs
      4 8 8 / 16 24 16 / 8 16 24 is 1320. */
  lemma NorthwestExampleCost()
    ensures Weighted([[10, 10, 0], [0, 15, 15], [0, 0, 25]], [[4, 8, 8], [16, 24, 16], [8, 16, 24]]) == 1320
  {
    var a: Matrix, c: Matrix := [[10, 10, 0], [0, 15, 15], [0, 0, 25]], [[4, 8, 8], [16, 24, 16], [8, 16, 24]];
    DotOfThree(a[0], c[0]);
    DotOfThree(a[1], c[1]);
    DotOfThree(a[2], c[2]);
    assert |a[..1][..0]| == 0 && |c[..1][..0]| == 0;
    assert Weighted(a[..1], c[..1]) == 120;
    assert a[..2][..1] == a[..1] && c[..2][..1] == c[..1];
    assert Weighted(a[..2], c[..2]) == 720;
  }

  /** A single source whose supply fits within the first destination's
      demand (supply 5 against demands 5 and 0, say): the first pass uses the
      row up and moves the cursor down, out of the matrix, so the loop makes
      exactly one pass and takes exactly one snapshot. */
  method NorthwestOnePass(q: Problem) returns (sol: Solution)
    requires Rectangular(q) && NonNegativeQuantities(q)
    requires |q.supply| == 1 && |q.demand| > 0 && q.supply[0] <= q.demand[0]
    ensures |sol.trace| == 1 && sol.trace[0] == Snap(q, Ship(q, Start(q), 0, 0))
  {
    ghost var k;
    sol, k := NorthwestCorner(q);
    FirstPassDown(q);
    assert Inside(q, Iterate(q, 0).0);
    assert k == 1;
  }

  /** The first pass of such a problem ships at (0, 0) and moves down. */
  lemma FirstPassDown(q: Problem)
    requires Rectangular(q) && |q.supply| == 1 && |q.demand| > 0 && q.supply[0] <= q.demand[0]
    ensures Iterate(q, 1) == (Cell(1, 0), Ship(q, Start(q), 0, 0))
  {
    ShipEffect(q, Start(q), 0, 0);
    assert Iterate(q, 1) == NorthwestStep(q, Start(q), Cell(0, 0));
  }

  lemma DotOfThree(a: seq<int>, b: seq<int>)
    requires |a| == |b| == 3
    ensures Dot(a, b) == a[0] * b[0] + a[1] * b[1] + a[2] * b[2]
  {
    assert |a[..1][..0]| == 0 && |b[..1][..0]| == 0;
    assert Dot(a[..1], b[..1]) == a[0] * b[0];
    assert a[..2][..1] == a[..1] && b[..2][..1] == b[..1];
    assert Dot(a[..2], b[..2]) == a[0] * b[0] + a[1] * b[1];
  }
}

=== FILE: shipment.dfy ===
/**
  What the two allocation loops of main.py share: the running state
  (remaining supply and demand, the allocation so far, the running total),
  the single allocation step both loops perform at their chosen cell, the
  per-step snapshot passed to `self.output`, and the accounting invariant
  that ties the running state back to the problem.
 */
module Shipment {
  import opened Grid
  import opened Balance

  /** The state of an allocation loop. */
  datatype Work = Work(supply: seq<int>, demand: seq<int>, allocation: Matrix, total: int)

  /** One step of the trace: remaining supply and demand, the cost matrix
      and the allocation matrix, as handed to `self.output` after a step. */
  datatype Snapshot = Snapshot(supply: seq<int>, demand: seq<int>, cost: Matrix, allocation: Matrix)

  /** What an allocation method produces: the allocation matrix, the total
      cost it returns, and one snapshot per allocation step. */
  datatype Solution = Solution(allocation: Matrix, totalCost: int, trace: seq<Snapshot>)

  /** `w` has the dimensions of `q`. */
  predicate Fits(q: Problem, w: Work)
  {
    |w.supply| == |q.supply| && |w.demand| == |q.demand| &&
    IsMatrix(w.allocation, |q.supply|, |q.demand|)
  }

  /** Nothing is lost or invented: for every source, what is allocated from
      it plus what it still has is its supply, and for every destination,
      what is allocated to it plus what it still needs is its demand. */
  predicate Conserves(q: Problem, supply: seq<int>, demand: seq<int>, allocation: Matrix)
  {
    |supply| == |q.supply| && |demand| == |q.demand| &&
    IsMatrix(allocation, |q.supply|, |q.demand|) &&
    (forall r :: 0 <= r < |q.supply| ==> Sum(allocation[r]) + supply[r] == q.supply[r]) &&
    (forall c :: 0 <= c < |q.demand| ==> ColSum(allocation, c) + demand[c] == q.demand[c])
  }

  /** The loop invariant both allocation loops keep: quantities are
      conserved and the running total is the cost of the allocation so far. */
  predicate Accounts(q: Problem, w: Work)
  {
    Rectangular(q) && Conserves(q, w.supply, w.demand, w.allocation) &&
    w.total == Weighted(w.allocation, q.cost)
  }

  /** A feasible solution of `q`: non-negative quantities whose row sums are
      the supplies and whose column sums are the demands. */
  predicate IsFeasible(q: Problem, allocation: Matrix)
  {
    IsMatrix(allocation, |q.supply|, |q.demand|) && NonNegativeMatrix(allocation) &&
    (forall r :: 0 <= r < |q.supply| ==> Sum(allocation[r]) == q.supply[r]) &&
    (forall c :: 0 <= c < |q.demand| ==> ColSum(allocation, c) == q.demand[c])
  }

  /** A snapshot that accounts for every unit of `q`, against `q`'s costs. */
  predicate Recorded(q: Problem, s: Snapshot)
  {
    s.cost == q.cost && Conserves(q, s.supply, s.demand, s.allocation)
  }

  /** Every snapshot of `trace` is `Recorded`. */
  predicate AllRecorded(q: Problem, trace: seq<Snapshot>)
    decreases |trace|
  {
    |trace| == 0 ||
    (AllRecorded(q, trace[..|trace| - 1]) && Recorded(q, trace[|trace| - 1]))
  }

  lemma RecordOne(q: Problem, trace: seq<Snapshot>, s: Snapshot)
    requires AllRecorded(q, trace) && Recorded(q, s)
    ensures AllRecorded(q, trace + [s])
  {
    assert (trace + [s])[..|trace|] == trace;
  }

  /** The snapshot of `w` recorded after a step. */
  function Snap(q: Problem, w: Work): Snapshot
  {
    Snapshot(w.supply, w.demand, q.cost, w.allocation)
  }

  /** The state before the first step: an all-zero allocation and a zero total. */
  function Start(q: Problem): (w: Work)
    requires Rectangular(q)
    ensures Accounts(q, w) && w.supply == q.supply && w.demand == q.demand
    ensures forall r, c :: 0 <= r < |q.supply| && 0 <= c < |q.demand| ==> w.allocation[r][c] == 0
  {
    ZerosSums(|q.supply|, |q.demand|, q.cost);
    Work(q.supply, q.demand, Zeros(|q.supply|, |q.demand|), 0)
  }

  /** One allocation step at cell `(i, j)`: ship as much as both the row and
      the column allow, write that amount into the cell, take it off the
      row's supply and the column's demand, and add its cost to the total.
      What the step does is stated by `ShipEffect`. */
  function Ship(q: Problem, w: Work, i: nat, j: nat): (w': Work)
    requires Rectangular(q) && Fits(q, w) && i < |q.supply| && j < |q.demand|
    ensures Fits(q, w')
  {
    var amount := Min(w.supply[i], w.demand[j]);
    Work(w.supply[i := w.supply[i] - amount],
         w.demand[j := w.demand[j] - amount],
         SetCell(w.allocation, i, j, amount),
         w.total + amount * q.cost[i][j])
  }

  /** The step ships `min(supply[i], demand[j])`: the row or the column is
      used up, neither is overdrawn, the amount leaves both the row and the
      column, and nothing else moves. */
  lemma ShipEffect(q: Problem, w: Work, i: nat, j: nat)
    requires Rectangular(q) && Fits(q, w) && i < |q.supply| && j < |q.demand|
    ensures var w' := Ship(q, w, i, j);
      && w'.allocation[i][j] == Min(w.supply[i], w.demand[j])
      && (w'.supply[i] == 0 || w'.demand[j] == 0)
      && w'.supply[i] >= 0 && w'.demand[j] >= 0
      && w.supply[i] - w'.supply[i] == w'.allocation[i][j] == w.demand[j] - w'.demand[j]
      && Sum(w.supply) - Sum(w'.supply) == w'.allocation[i][j] == Sum(w.demand) - Sum(w'.demand)
      && (forall r :: 0 <= r < |q.supply| && r != i ==> w'.supply[r] == w.supply[r])
      && (forall c :: 0 <= c < |q.demand| && c != j ==> w'.demand[c] == w.demand[c])
      && (forall r, c :: 0 <= r < |q.supply| && 0 <= c < |q.demand| && (r != i || c != j)
                         ==> w'.allocation[r][c] == w.allocation[r][c])
  {
    var amount := Min(w.supply[i], w.demand[j]);
    SumUpdate(w.supply, i, w.supply[i] - amount);
    SumUpdate(w.demand, j, w.demand[j] - amount);
  }

  /** Writing into an empty cell keeps the accounting: what leaves the row
      and the column arrives in the cell, and the total grows by its cost. */
  lemma ShipKeepsAccounts(q: Problem, w: Work, i: nat, j: nat)
    requires Rectangular(q) && Fits(q, w) && i < |q.supply| && j < |q.demand|
    requires Accounts(q, w) && w.allocation[i][j] == 0
    ensures Accounts(q, Ship(q, w, i, j))
  {
    var w' := Ship(q, w, i, j);
    var amount := w'.allocation[i][j];
    ShipEffect(q, w, i, j);
    SumUpdate(w.allocation[i], j, amount);
    forall c | 0 <= c < |q.demand|
      ensures ColSum(w'.allocation, c) + w'.demand[c] == q.demand[c]
    {
      ColSumUpdate(w.allocation, i, j, amount, c);
    }
    WeightedUpdate(w.allocation, q.cost, i, j, amount);
  }

  /** When one side of a balanced, non-negative remainder is used up, so is
      the other: both sum to the same amount, and a non-negative vector sums
      to zero only when every entry is zero. */
  lemma {:induction false} BothUsedUp(supply: seq<int>, demand: seq<int>)
    requires NonNegative(supply) && NonNegative(demand) && Sum(supply) == Sum(demand)
    requires !Any(supply) || !Any(demand)
    ensures !Any(supply) && !Any(demand)
  {
    SumZeroIffNoneLeft(supply);
    SumZeroIffNoneLeft(demand);
  }

  /** A conserving allocation that has used up every supply and demand and
      ships no negative amount is feasible. */
  lemma UsedUpIsFeasible(q: Problem, w: Work)
    requires Accounts(q, w) && !Any(w.supply) && !Any(w.demand)
    requires NonNegativeMatrix(w.allocation)
    ensures IsFeasible(q, w.allocation)
  {
    assert forall r :: 0 <= r < |q.supply| ==> w.supply[r] == 0;
    assert forall c :: 0 <= c < |q.demand| ==> w.demand[c] == 0;
  }
}
